=== FILE: README.md ===
# Longest-tour solver for game boards — a Dafny model

This project models `GAME/supplementary/tsp_utils.py`, the helper that solves
small travelling-salesman instances for the game. A board is a list of
hallways `(room, room, weight)`. The code does four things:

- `board_to_graph` builds an undirected weighted graph from the board.
- `is_complete` and `validate_graph` check that the graph is complete and
  that every weight is positive.
- `solve` tries every ordering of the rooms outside a required prefix.
- For each ordering it scores the closed walk `prefix + ordering + [start]`
  and keeps the longest. On request it keeps every tied walk.

The model consists of eight modules in seven files:

| file | modules | what it holds |
|---|---|---|
| `graphs.dfy` | `Results`, `Graphs` | `Option`/`Result`; the graph (rooms in insertion order, each undirected edge stored once, self-loops allowed); `AddEdge`; `BoardToGraph` as a left fold over the board |
| `completeness.dfy` | `Completeness` | the edge-count test `IsComplete`, its loop-free counterpart `IsCompleteSimple`, and `ValidateGraph` |
| `permutations.dfy` | `Permutations` | orderings enumerated in `itertools.permutations` order |
| `solver.dfy` | `TourSolver` | the weight table, walk scoring with the `KeyError` as `Err(MissingEdge(..))`, the scan step and fold, `Solve` |
| `scan.dfy` | `ScanProperties` | what the fold keeps, stated without the fold |
| `solve_props.dfy` | `SolveProperties` | solver theorems: candidate shape, success and failure conditions, optimality, distinct tours |
| `counterexamples.dfy` | `Counterexamples` | worked inputs: the self-loop board and the unit triangle behind the findings |

Errors are values:
- `ValidateGraph` returns `Err(NotComplete)` or `Err(NonPositiveWeight)` where
  the source raises `ValueError`.
- `Solve` returns `Err(MissingEdge(a, b))` where the source's weight lookup
  raises `KeyError`.
- `Solve` returns `Err(NoValidTour)` where the source raises `RuntimeError`.

The model keeps the source's exact bookkeeping:
- The best distance starts at 0, and only a strictly longer walk replaces the
  best one.
- That walk is stored without its closing room (`ordering[:-1]`).
- With `get_all_tours`, a tie is appended with its closing room.
- With an empty prefix the start room is `"L"` and the walk is `ordering + ["L"]`.

Three consequences of that bookkeeping:
- A single tour is the first maximal tour in enumeration order.
- When no room remains outside the prefix, the one empty ordering is
  enumerated and `prefix + [start]` is scored.
- A weight lookup that fails on any candidate ends the solve with that
  missing pair, whatever the other candidates score. Once every candidate
  can be scored, the solver reports that no valid tour was found exactly
  when no candidate beats 0 in single-tour mode, or when none reaches 0 in
  all-tours mode.

`SolveWith` takes one extra flag, `trimTies`, which chooses how ties are
stored:
- `Solve` is the code as written (`trimTies` false).
- `SolveTrimmed` is the corrected form (see Findings).

## Model

| member | source | states |
|---|---|---|
| Graphs.AddEdge | GAME/supplementary/tsp_utils.py:10 | `add_edge`: no contract of its own; AddNode, AddEdgeValid and AddEdgeLookup state its effect |
| Graphs.BoardToGraph | GAME/supplementary/tsp_utils.py:6-11 | `board_to_graph`: no contract of its own; BoardToGraphValid, BoardToGraphNodes, BoardToGraphLastWeight, BoardToGraphUnnamed and BoardToGraphCoversBoard state what it builds |
| Graphs.AddNode | GAME/supplementary/tsp_utils.py:10 | adding an endpoint leaves exactly the old rooms plus that room |
| Graphs.AddEdgeValid | GAME/supplementary/tsp_utils.py:10 | adding a hallway keeps the graph well formed: rooms distinct, endpoints are rooms, each undirected edge stored under one orientation only |
| Graphs.AddEdgeLookup | GAME/supplementary/tsp_utils.py:10 | after adding {u, v} with weight w, that hallway weighs w in either direction and every other pair keeps its old weight or absence |
| Graphs.BoardToGraphValid | GAME/supplementary/tsp_utils.py:6-11 | the graph built from any board is well formed |
| Graphs.BoardToGraphNodes | GAME/supplementary/tsp_utils.py:8-10 | a room is a node of the built graph exactly when some board entry names it at either end |
| Graphs.BoardToGraphLookupStep | GAME/supplementary/tsp_utils.py:9-10 | the last board entry changes the weight of {a, b} only if it names that hallway (in either order) |
| Graphs.BoardToGraphLastWeight | GAME/supplementary/tsp_utils.py:9-10 | the weight of a hallway is the weight in the last board entry naming it, so later entries override earlier ones |
| Graphs.BoardToGraphUnnamed | GAME/supplementary/tsp_utils.py:9-10 | a pair no entry names is not joined |
| Graphs.BoardToGraphCoversBoard | GAME/supplementary/tsp_utils.py:9-10 | every hallway the board names is an edge of the built graph |
| Graphs.LastJoinExists | GAME/supplementary/tsp_utils.py:9-10 | whenever an entry names {a, b}, there is a last entry that names it |
| Graphs.BoardToGraphFirstMention | GAME/supplementary/tsp_utils.py:8-10 | the built graph lists each named room exactly once, in the order the board first names it, the first end of an entry before the second (networkx's insertion order) |
| Graphs.LookupSymmetric | GAME/supplementary/tsp_utils.py:8 | the graph is undirected: the weight of {a, b} is the same asked either way round |
| Completeness.IsComplete | GAME/supplementary/tsp_utils.py:14-17 | `is_complete`: no contract of its own; IsCompleteIffAllPairsJoined states when it holds, and Counterexamples.SelfLoopFoolsIsComplete shows it holding on an incomplete graph |
| Completeness.IsCompleteSimple | GAME/supplementary/tsp_utils.py:14-17 | the corrected count, over hallways between distinct rooms only: no contract of its own; IsCompleteSimpleIffAllPairsJoined states that it holds exactly when every two rooms are joined |
| Completeness.CountIffAllPairsJoined | GAME/supplementary/tsp_utils.py:14-17 | a graph has at most n(n-1)/2 hallways between distinct rooms, and exactly that many precisely when every two distinct rooms are joined |
| Completeness.IsCompleteIffAllPairsJoined | GAME/supplementary/tsp_utils.py:14-17 | on a graph without self-loops, the source's edge-count test holds exactly when every two distinct rooms are joined |
| Completeness.IsCompleteSimpleIffAllPairsJoined | GAME/supplementary/tsp_utils.py:14-17 | the corrected count, which leaves out self-loops, holds exactly when every two distinct rooms are joined, on every well-formed graph |
| Completeness.ValidateGraph | GAME/supplementary/tsp_utils.py:20-29 | fails with NotComplete exactly when the count test fails; otherwise fails with NonPositiveWeight exactly when some weight is at most 0; succeeds exactly when both checks pass |
| Completeness.IndexPairsCard | GAME/supplementary/tsp_utils.py:17 | there are Tri(n) = 0 + 1 + ... + (n-1) unordered pairs of distinct positions among n rooms; TriClosedForm equates Tri(n) with the n(n-1)/2 the test compares against |
| Permutations.Perms | GAME/supplementary/tsp_utils.py:50 | `itertools.permutations`: no contract of its own; PermsAreRearrangements, PermsComplete, PermsCount and PermsDistinct state what it lists |
| Permutations.PermsAreRearrangements | GAME/supplementary/tsp_utils.py:50 | every enumerated ordering rearranges the remaining rooms: same elements with the same multiplicities |
| Permutations.PermsComplete | GAME/supplementary/tsp_utils.py:50 | every rearrangement of the remaining rooms is enumerated |
| Permutations.PermsCount | GAME/supplementary/tsp_utils.py:50 | the enumeration lists exactly k! orderings of k rooms, so it is never empty |
| Permutations.PermOfDistinctIsDistinct | GAME/supplementary/tsp_utils.py:50 | an ordering of duplicate-free rooms repeats no room |
| TourSolver.StartNode | GAME/supplementary/tsp_utils.py:36 | the start room: no contract of its own; CandidateIsTour and EmptyPrefixTourSkipsStart state its effect on the candidates |
| TourSolver.RemainingNodes | GAME/supplementary/tsp_utils.py:36-39 | a room remains exactly when it is in the graph, not in the prefix, and not the start; the remaining rooms are duplicate-free when the graph's rooms are |
| TourSolver.PathWeight | GAME/supplementary/tsp_utils.py:52-57 | a walk scores exactly when every consecutive pair is in the weight table; otherwise the error names the first missing pair; with positive weights, a walk of two or more rooms scores positive |
| SolveProperties.PathWeightSnoc | GAME/supplementary/tsp_utils.py:52-57 | a walk's score is the sum of its hallway weights: extending a scored walk by one room adds exactly the new hallway's weight, or fails on exactly that hallway when it is missing |
| TourSolver.WeightDict | GAME/supplementary/tsp_utils.py:44-48 | `weight_dict`: no contract of its own; WeightDictSymmetric and WeightDictPositive state its contents |
| SolveProperties.WeightDictSymmetric | GAME/supplementary/tsp_utils.py:44-48 | the weight table has (a, b) exactly when {a, b} is a hallway, holds that hallway's weight, and gives the same weight in both directions |
| SolveProperties.WeightDictPositive | GAME/supplementary/tsp_utils.py:44-48 | every weight in the table is positive when every hallway weight is |
| TourSolver.Candidates | GAME/supplementary/tsp_utils.py:50-51 | `partial_path + list(perm) + [start_node]` for each enumerated ordering: no contract of its own; CandidateShape, CandidateIsTour and OrderingsDistinct state what the candidates are |
| TourSolver.Orderings | GAME/supplementary/tsp_utils.py:36-51 | the candidate list of a graph and prefix: no contract of its own; CandidateShape, CandidateIsTour, CandidateStepsAreEdges and OrderingsDistinct state what it holds |
| SolveProperties.CandidateShape | GAME/supplementary/tsp_utils.py:36-51 | every candidate is the prefix, then each room outside the prefix and other than the start exactly once, then the start |
| SolveProperties.CandidateIsTour | GAME/supplementary/tsp_utils.py:36-51 | for a non-empty duplicate-free prefix of graph rooms, every candidate starts and ends at the start room and, without its closing room, visits every room exactly once |
| SolveProperties.CandidateStepsAreEdges | GAME/supplementary/tsp_utils.py:36-55 | consecutive rooms of a candidate are two distinct rooms of the graph |
| SolveProperties.RemainingNonEmpty | GAME/supplementary/tsp_utils.py:36-39 | with two or more rooms and a prefix of at most the start room, at least one room remains to be ordered |
| TourSolver.SolveWith | GAME/supplementary/tsp_utils.py:32-68 | `solve` with a choice of tie shape: no contract of its own; the SolveProperties lemmas state its behaviour |
| TourSolver.Solve | GAME/supplementary/tsp_utils.py:32-68 | `solve` as written: no contract of its own; SolveMissingEdge, SolveBestTour, SolveAllTours, SolveAllToursShape, SolveOptimal and SolveSucceeds state its behaviour |
| TourSolver.SolveTrimmed | GAME/supplementary/tsp_utils.py:32-68 | `solve` with ties stored trimmed: no contract of its own; SolveOptimal, SolveTrimmedShape, SolveToursDistinct, SolveSucceeds and StrictlyValidatedSolveSucceeds state its behaviour |
| SolveProperties.SolveMissingEdge | GAME/supplementary/tsp_utils.py:50-57 | the solver fails with a missing pair exactly when some candidate needs a pair absent from the table, and it reports the first missing pair of the first such candidate |
| SolveProperties.SolveBestTour | GAME/supplementary/tsp_utils.py:41-68 | for one tour, with every candidate scored: fails with no valid tour exactly when no candidate is positive; otherwise returns the first candidate of maximal distance, trimmed of its closing room, and a positive distance that bounds every candidate |
| SolveProperties.SolveAllTours | GAME/supplementary/tsp_utils.py:41-68 | for all tours, with every candidate scored: fails with no valid tour exactly when every candidate is negative; otherwise, at a positive distance, returns the first maximal candidate trimmed followed by every later tie untrimmed; at distance 0, returns every candidate of distance 0 untrimmed |
| SolveProperties.SolveAllToursShape | GAME/supplementary/tsp_utils.py:59-63 | each tour returned in all-tours mode is a candidate of the returned distance, trimmed only when it is first and the distance is positive |
| SolveProperties.SolveOptimal | GAME/supplementary/tsp_utils.py:50-61 | when the solver succeeds, as written or with ties stored trimmed, any walk that extends the prefix by any rearrangement of the remaining rooms scores at most the returned distance |
| SolveProperties.EmptyPrefixTourSkipsStart | GAME/supplementary/tsp_utils.py:36-61 | with an empty prefix, in single-tour mode, the returned tour never contains "L", and its distance is that of the tour followed by "L", leaving out the hallway from "L" to the first room |
| SolveProperties.SolveSucceeds | GAME/supplementary/tsp_utils.py:32-68 | on a well-formed graph of two or more rooms where every two distinct rooms are joined with positive weight, and for a duplicate-free prefix of graph rooms (or an empty one with "L" present), the solver succeeds with a positive distance whichever way ties are stored |
| SolveProperties.ValidatedLoopFreeSolveSucceeds | GAME/supplementary/tsp_utils.py:14-29 | on a graph without self-loops, passing the source's count and weight checks is enough for the solver to succeed on a well-formed graph of two or more rooms, given a duplicate-free prefix of graph rooms, or an empty prefix when "L" is a room |
| SolveProperties.StrictlyValidatedSolveSucceeds | GAME/supplementary/tsp_utils.py:14-29 | with the corrected count, passing the checks is enough for both the as-written and the corrected solver to succeed on a well-formed graph of two or more rooms, given a duplicate-free prefix of graph rooms, or an empty prefix when "L" is a room |
| TourSolver.Trim | GAME/supplementary/tsp_utils.py:61 | `ordering[:-1]`: no contract of its own; ScanTourShape, SolveAllToursShape and SolveTrimmedShape state which kept tours are trimmed |
| TourSolver.TieShape | GAME/supplementary/tsp_utils.py:63 | how a tie is stored, as written (whole) or corrected (trimmed): no contract of its own; ScanTourShape and SolveTrimmedShape state its effect |
| TourSolver.Step | GAME/supplementary/tsp_utils.py:59-63 | one loop iteration's bookkeeping: no contract of its own; KeptNewBest, KeptTie and KeptUnchanged state that each branch preserves Kept |
| TourSolver.Scan | GAME/supplementary/tsp_utils.py:50-63 | the loop over the candidates: no contract of its own; ScanErrors, ScanKeeps, ScanKeepsNothing and ScanTourShape state its result |
| ScanProperties.ScanErrors | GAME/supplementary/tsp_utils.py:50-57 | the scan fails exactly when some candidate cannot be scored, and then with the first such candidate's error |
| ScanProperties.ScanKeeps | GAME/supplementary/tsp_utils.py:41-63 | with every candidate scored, the kept distance is at least 0 and bounds every candidate; if it is positive, the first kept tour is the first candidate reaching it and the rest are the later ties; if it is 0, the kept tours are the ties at 0 |
| ScanProperties.ScanKeepsNothing | GAME/supplementary/tsp_utils.py:59-66 | nothing is kept exactly when no candidate beats the starting distance 0 (single tour), or no candidate reaches it (all tours) |
| ScanProperties.ScanTourShape | GAME/supplementary/tsp_utils.py:59-63 | every kept tour is a candidate of the kept distance |
| ScanProperties.KeptNewBest | GAME/supplementary/tsp_utils.py:59-61 | a candidate strictly longer than the kept distance becomes the only kept tour, trimmed, and the description of what is kept still holds |
| ScanProperties.KeptTie | GAME/supplementary/tsp_utils.py:62-63 | with all tours requested, a candidate equal to the kept distance is appended as a tie, and the description of what is kept still holds |
| ScanProperties.KeptUnchanged | GAME/supplementary/tsp_utils.py:59-63 | a shorter candidate, or an equal one when only one tour is requested, leaves what is kept unchanged |
| ScanProperties.ScanFailsOnFirst | GAME/supplementary/tsp_utils.py:50-57 | when the first candidate cannot be scored, the whole scan fails with its missing pair |
| ScanProperties.TiesMembers | GAME/supplementary/tsp_utils.py:62-63 | a tie list holds exactly the candidates in its range that reach the distance |
| Counterexamples.SelfLoopBreaksSolve | GAME/supplementary/tsp_utils.py:14-57 | the self-loop board passes the count and weight checks, yet solving from A fails on the missing pair (C, A) |
| Counterexamples.LoopBoardGraph | GAME/supplementary/tsp_utils.py:6-11 | the self-loop board builds the graph written out as LoopGraph |
| Counterexamples.SelfLoopFoolsIsComplete | GAME/supplementary/tsp_utils.py:14-17 | the self-loop graph passes the count test and has only positive weights, yet rooms A and C are not joined |
| Counterexamples.SelfLoopCaughtBySimpleCount | GAME/supplementary/tsp_utils.py:14-17 | the corrected count rejects the self-loop graph |
| Counterexamples.LoopFirstCandidateFails | GAME/supplementary/tsp_utils.py:50-57 | from A on the self-loop graph, the first candidate is A, B, C, A, and scoring it stops at the pair (C, A) |
| Counterexamples.TriangleBoardGraph | GAME/supplementary/tsp_utils.py:6-11 | the triangle board builds the graph written out as TriangleGraph |
| Counterexamples.TiesKeepClosingRoom | GAME/supplementary/tsp_utils.py:59-63 | on the unit triangle from L, the as-written solver returns [L, A, B] and [L, B, A, L] at distance 3 |
| Counterexamples.TrimmedTiesAgree | GAME/supplementary/tsp_utils.py:59-63 | the corrected solver returns [L, A, B] and [L, B, A] for the same input |
| SolveProperties.SolveTrimmedShape | GAME/supplementary/tsp_utils.py:59-63 | in the corrected solver every returned tour is a candidate of the returned distance without its closing room, and closing it back to the start scores exactly the returned distance |
| SolveProperties.SolveTourScoresDistance | GAME/supplementary/tsp_utils.py:50-68 | in single-tour mode the returned distance is the weight of the returned tour closed back to its start room |
| SolveProperties.OrderingsDistinct | GAME/supplementary/tsp_utils.py:36-51 | on a graph with distinct rooms, all candidates have the same length and no two agree even without their closing rooms |
| SolveProperties.SolveToursDistinct | GAME/supplementary/tsp_utils.py:59-68 | in all-tours mode no tour is returned twice, whichever way ties are stored |
| Permutations.PermsDistinct | GAME/supplementary/tsp_utils.py:50 | the orderings of duplicate-free rooms are each listed once |
| ScanProperties.ScanReachesDistance | GAME/supplementary/tsp_utils.py:42-60 | the kept distance is either the starting 0 or the distance of some candidate |
| ScanProperties.TiesDistinct | GAME/supplementary/tsp_utils.py:62-63 | a tie list never holds the same tour twice when the candidates' stored shapes differ |
| ScanProperties.FirstNotTied | GAME/supplementary/tsp_utils.py:59-63 | the trimmed first best tour is never also one of the later ties |
| ScanProperties.ScanToursDistinct | GAME/supplementary/tsp_utils.py:59-63 | the scan keeps no tour twice when the candidates have one length and differ even without their closing rooms |

## Left out

- The other files of the repository are not part of this model: the ILP
  solver, the board-solving driver, prompts, belief merging and the
  negotiation engine.
- networkx internals are modelled only as far as `Graph`, `add_edge`,
  `nodes`, `number_of_edges` and `get_edge_attributes` behave here. The graph
  is a room list in insertion order plus a map with one key per undirected
  edge.
- networkx reports each edge under the orientation of its adjacency
  order; the model keeps the orientation of first insertion. The weight
  table holds both orientations, so no result depends on this.
- Graphs are always built by `BoardToGraph` and so every edge has a weight.
  The source would fail with a `TypeError` on an edge without a weight;
  that case is not modelled.
- Weights are unbounded integers. The source compares each weight with 0,
  sums the weights along each walk and compares those sums with each other
  and with 0. Floating-point weights, and the rounding of their sums that
  could change which tours tie, are not modelled.
- The default arguments of `solve` (a mutable list `["L"]`, `False`) are
  not modelled. The prefix and the mode are always passed explicitly.
- ValidateGraph: it visits the edges in a chosen order rather than networkx's
  order. Since it only reports whether some weight is non-positive, the
  result is the same.
- The order in which tied tours are listed follows the order of
  `itertools.permutations`, and that order is modelled. It rests on the order
  of `g.nodes`. For a built graph, `BoardToGraphFirstMention` fixes that as
  the order in which the board first names the rooms.

## Findings

| source | as written | input that shows it | evidently intended | confidence | as-written member | corrected member |
|---|---|---|---|---|---|---|
| GAME/supplementary/tsp_utils.py:14-17 | `is_complete` compares `number_of_edges()`, which counts self-loops, with n(n-1)/2 | board [(A,A,1), (A,B,1), (B,C,1)]: 3 edges on 3 rooms pass the check, but A and C are not joined, and `solve` from A fails on the pair (C, A) | count only hallways between distinct rooms, so that passing the check guarantees every pair is joined | high, not executed | Counterexamples.SelfLoopBreaksSolve | Completeness.IsCompleteSimpleIffAllPairsJoined |
| GAME/supplementary/tsp_utils.py:59-63 | a new best tour is stored as `ordering[:-1]`, but a tie is appended as `ordering`, still holding its closing room | unit triangle L, A, B from prefix ["L"] with all tours requested: the result is [[L,A,B], [L,B,A,L]] at distance 3 | every kept tour stored the same way, without its closing room: the caller at GAME/supplementary/solve_boards.py:28-30 requests all tours and closes each one with `tour + [tour[0]]`, which turns the tie into [L,B,A,L,L] | high, not executed | Counterexamples.TiesKeepClosingRoom | SolveProperties.SolveTrimmedShape |

=== FILE: completeness.dfy ===
/**
 * The completeness test and the validation a board's graph must pass before
 * it is solved.
 *
 * The source decides completeness by counting: a graph on n nodes is taken to
 * be complete when it has n(n-1)/2 edges.  `IsCompleteIffAllPairsJoined`
 * proves that this count is exact for graphs without self-loops, and
 * `SelfLoopFoolsIsComplete` shows that a self-loop breaks it.
 */
module Completeness {
  import opened Results
  import opened Graphs

  /** The count test of the source: n(n-1)/2 edges on n nodes. */
  function IsComplete(g: Graph): bool {
    |g.edges| == |g.nodes| * (|g.nodes| - 1) / 2
  }

  /** Every two distinct nodes are joined by an edge. */
  ghost predicate AllPairsJoined(g: Graph) {
    forall a, b :: a in g.nodes && b in g.nodes && a != b ==> g.Lookup(a, b).Some?
  }

  ghost predicate NoSelfLoops(g: Graph) {
    forall a, b :: (a, b) in g.edges ==> a != b
  }

  ghost predicate PositiveWeights(g: Graph) {
    forall e :: e in g.edges ==> g.edges[e] > 0
  }

  /** The edges that join two different nodes. */
  function ProperEdges(g: Graph): set<(Node, Node)> {
    set e | e in g.edges.Keys && e.0 != e.1
  }

  /**
   * Completeness counted the way networkx counts it once self-loops are
   * subtracted: the edges between distinct nodes number n(n-1)/2.
   */
  function IsCompleteSimple(g: Graph): bool {
    |ProperEdges(g)| == |g.nodes| * (|g.nodes| - 1) / 2
  }

  /** The corrected count test decides exactly whether every two distinct nodes are joined. */
  lemma IsCompleteSimpleIffAllPairsJoined(g: Graph)
    requires g.Valid()
    ensures IsCompleteSimple(g) <==> AllPairsJoined(g)
  {
    CountIffAllPairsJoined(g);
  }

  /* ---------- counting unordered pairs ---------- */

  /** The index pairs (i, j) with i < j < n: one for each unordered pair of n distinct nodes. */
  function IndexPairs(n: nat): set<(int, int)> {
    set i, j | 0 <= i < j < n :: (i, j)
  }

  /** The unordered pair of node positions an edge joins, smaller position first. */
  function PositionPair(ns: seq<Node>, e: (Node, Node)): (int, int)
    requires e.0 in ns && e.1 in ns
  {
    var i := IndexOf(ns, e.0);
    var j := IndexOf(ns, e.1);
    if i <= j then (i, j) else (j, i)
  }

  function PositionPairs(ns: seq<Node>, es: set<(Node, Node)>): set<(int, int)> {
    set e | e in es && e.0 in ns && e.1 in ns :: PositionPair(ns, e)
  }

  /** Triangular number, the size of `IndexPairs(n)`. */
  function Tri(n: nat): nat {
    if n == 0 then 0 else Tri(n - 1) + (n - 1)
  }

  lemma {:induction false} TriClosedForm(n: nat)
    ensures Tri(n) == n * (n - 1) / 2
  {
    if n > 0 {
      TriClosedForm(n - 1);
      assert n * (n - 1) == (n - 1) * (n - 2) + 2 * (n - 1);
    }
  }

  /** The index pairs (i, n) with i < m. */
  function Column(m: nat, n: int): set<(int, int)> {
    set i | 0 <= i < m :: (i, n)
  }

  lemma {:induction false} ColumnCard(m: nat, n: int)
    ensures |Column(m, n)| == m
  {
    if m > 0 {
      ColumnCard(m - 1, n);
      assert Column(m, n) == Column(m - 1, n) + {(m - 1, n)};
    }
  }

  lemma {:induction false} IndexPairsCard(n: nat)
    ensures |IndexPairs(n)| == Tri(n)
  {
    if n > 0 {
      IndexPairsCard(n - 1);
      ColumnCard(n - 1, n - 1);
      IndexPairsSplit(n);
    }
  }

  /** The index pairs below n are those below n - 1 plus the last column, which is disjoint from them. */
  lemma IndexPairsSplit(n: nat)
    requires n > 0
    ensures IndexPairs(n) == IndexPairs(n - 1) + Column(n - 1, n - 1)
    ensures IndexPairs(n - 1) !! Column(n - 1, n - 1)
  {
    var col := Column(n - 1, n - 1);
    forall p | p in IndexPairs(n) ensures p in IndexPairs(n - 1) + col {
      if p.1 < n - 1 {
        assert p in IndexPairs(n - 1);
      } else {
        assert p in col;
      }
    }
  }

  lemma IndexOfDistinct(ns: seq<Node>, k: int)
    requires forall i, j :: 0 <= i < j < |ns| ==> ns[i] != ns[j]
    requires 0 <= k < |ns|
    ensures IndexOf(ns, ns[k]) == k
  {
  }

  /** Two pairs of rooms on the same unordered positions are equal or reversed. */
  lemma SamePositionPair(ns: seq<Node>, e: (Node, Node), f: (Node, Node))
    requires e.0 in ns && e.1 in ns && f.0 in ns && f.1 in ns
    requires PositionPair(ns, e) == PositionPair(ns, f)
    ensures e == f || e == (f.1, f.0)
  {
    var i, j := IndexOf(ns, e.0), IndexOf(ns, e.1);
    var k, l := IndexOf(ns, f.0), IndexOf(ns, f.1);
    assert ns[i] == e.0 && ns[j] == e.1 && ns[k] == f.0 && ns[l] == f.1;
    assert (i == k && j == l) || (i == l && j == k);
  }

  /** No two edges of `es` join the same unordered pair of positions. */
  ghost predicate PositionsInjective(ns: seq<Node>, es: set<(Node, Node)>) {
    forall e, f ::
      (e in es && f in es && e.0 in ns && e.1 in ns && f.0 in ns && f.1 in ns
       && PositionPair(ns, e) == PositionPair(ns, f)) ==> e == f
  }

  /** Distinct proper edges of a valid graph join distinct unordered position pairs. */
  lemma ProperEdgesInjective(g: Graph)
    requires g.Valid()
    ensures PositionsInjective(g.nodes, ProperEdges(g))
  {
    var ns := g.nodes;
    forall e, f | e in ProperEdges(g) && f in ProperEdges(g) && e.0 in ns && e.1 in ns && f.0 in ns && f.1 in ns
      && PositionPair(ns, e) == PositionPair(ns, f)
      ensures e == f
    {
      SamePositionPair(ns, e, f);
    }
  }

  lemma {:induction false} PositionPairsCard(ns: seq<Node>, es: set<(Node, Node)>)
    requires PositionsInjective(ns, es)
    requires forall e :: e in es ==> e.0 in ns && e.1 in ns
    ensures |PositionPairs(ns, es)| == |es|
    decreases |es|
  {
    if es != {} {
      var e :| e in es;
      var rest := es - {e};
      PositionPairsCard(ns, rest);
      assert PositionPairs(ns, es) == PositionPairs(ns, rest) + {PositionPair(ns, e)};
    }
  }

  lemma SubsetSize(a: set<(int, int)>, b: set<(int, int)>)
    requires a <= b
    ensures |a| <= |b|
  {
    assert b == a + (b - a);
  }

  lemma SubsetOfSameSize(a: set<(int, int)>, b: set<(int, int)>)
    requires a <= b && |a| == |b|
    ensures a == b
  {
    assert b == a + (b - a);
    assert |b - a| == 0;
  }

  /** Every proper edge lands on an index pair below n. */
  lemma PositionPairsWithin(g: Graph)
    ensures PositionPairs(g.nodes, ProperEdges(g)) <= IndexPairs(|g.nodes|)
  {
    var ns := g.nodes;
    forall e | e in ProperEdges(g) && e.0 in ns && e.1 in ns ensures PositionPair(ns, e) in IndexPairs(|ns|) {
      var i, j := IndexOf(ns, e.0), IndexOf(ns, e.1);
      assert i != j;
      assert (if i <= j then (i, j) else (j, i)) in IndexPairs(|ns|);
    }
  }

  /** When every two distinct nodes are joined, every index pair is some edge's. */
  lemma AllPairsJoinedCovers(g: Graph)
    requires g.Valid() && AllPairsJoined(g)
    ensures IndexPairs(|g.nodes|) <= PositionPairs(g.nodes, ProperEdges(g))
  {
    var ns := g.nodes;
    forall p | p in IndexPairs(|ns|) ensures p in PositionPairs(ns, ProperEdges(g)) {
      var a, b := ns[p.0], ns[p.1];
      IndexOfDistinct(ns, p.0);
      IndexOfDistinct(ns, p.1);
      assert g.Lookup(a, b).Some?;
      if (a, b) in g.edges {
        assert (a, b) in ProperEdges(g) && PositionPair(ns, (a, b)) == p;
      } else {
        assert (b, a) in ProperEdges(g) && PositionPair(ns, (b, a)) == p;
      }
    }
  }

  /** When every index pair is some edge's, every two distinct nodes are joined. */
  lemma CoveredMeansAllPairsJoined(g: Graph)
    requires IndexPairs(|g.nodes|) <= PositionPairs(g.nodes, ProperEdges(g))
    ensures AllPairsJoined(g)
  {
    var ns := g.nodes;
    forall a, b | a in ns && b in ns && a != b ensures g.Lookup(a, b).Some? {
      var p := PositionPair(ns, (a, b));
      var i, j := IndexOf(ns, a), IndexOf(ns, b);
      assert i != j;
      assert p in IndexPairs(|ns|);
      var e :| e in ProperEdges(g) && e.0 in ns && e.1 in ns && PositionPair(ns, e) == p;
      SamePositionPair(ns, e, (a, b));
    }
  }

  /**
   * In a valid graph the edges between distinct nodes number at most
   * n(n-1)/2, and exactly that many when every two distinct nodes are joined.
   */
  lemma CountIffAllPairsJoined(g: Graph)
    requires g.Valid()
    ensures |ProperEdges(g)| <= |g.nodes| * (|g.nodes| - 1) / 2
    ensures |ProperEdges(g)| == |g.nodes| * (|g.nodes| - 1) / 2 <==> AllPairsJoined(g)
  {
    TriClosedForm(|g.nodes|);
    CountIffAllPairsJoinedTri(g);
  }

  lemma CountIffAllPairsJoinedTri(g: Graph)
    requires g.Valid()
    ensures |ProperEdges(g)| <= Tri(|g.nodes|)
    ensures |ProperEdges(g)| == Tri(|g.nodes|) <==> AllPairsJoined(g)
  {
    var ns := g.nodes;
    var n := |ns|;
    var img := PositionPairs(ns, ProperEdges(g));
    var all := IndexPairs(n);
    ProperEdgesInjective(g);
    PositionPairsCard(ns, ProperEdges(g));
    IndexPairsCard(n);
    PositionPairsWithin(g);
    SubsetSize(img, all);
    if AllPairsJoined(g) {
      AllPairsJoinedCovers(g);
      assert img == all;
    }
    if |ProperEdges(g)| == Tri(n) {
      SubsetOfSameSize(img, all);
      CoveredMeansAllPairsJoined(g);
    }
  }

  /**
   * For a valid graph without self-loops the source's count test decides
   * exactly whether every two distinct nodes are joined.
   */
  lemma IsCompleteIffAllPairsJoined(g: Graph)
    requires g.Valid() && NoSelfLoops(g)
    ensures IsComplete(g) <==> AllPairsJoined(g)
  {
    assert ProperEdges(g) == g.edges.Keys;
    CountIffAllPairsJoined(g);
  }

  /* ---------- validation ---------- */

  datatype GraphError = NotComplete | NonPositiveWeight

  /**
   * Rejects a graph that fails the count test, then one with an edge weight
   * that is not positive; otherwise succeeds.  The graph is a value, so it is
   * returned unchanged in every case.
   */
  method ValidateGraph(g: Graph) returns (r: Result<(), GraphError>)
    ensures r == Err(NotComplete) <==> !IsComplete(g)
    ensures r == Err(NonPositiveWeight) <==> IsComplete(g) && !PositiveWeights(g)
    ensures r == Ok(()) <==> IsComplete(g) && PositiveWeights(g)
  {
    if !IsComplete(g) {
      return Err(NotComplete);
    }
    var unchecked := g.edges.Keys;
    while unchecked != {}
      invariant unchecked <= g.edges.Keys
      invariant forall e :: e in g.edges && e !in unchecked ==> g.edges[e] > 0
      decreases |unchecked|
    {
      var e :| e in unchecked;
      if g.edges[e] <= 0 {
        return Err(NonPositiveWeight);
      }
      unchecked := unchecked - {e};
    }
    return Ok(());
  }
}

=== FILE: counterexamples.dfy ===
/**
 * Worked inputs behind the two discrepancies between the source and its
 * evident intent: a self-loop that lets an incomplete board through the
 * graph check, and tied tours stored in a different shape from the first
 * best tour.
 */
module Counterexamples {
  import opened Results
  import opened Graphs
  import opened Completeness
  import opened Permutations
  import opened TourSolver
  import opened ScanProperties

  /** The one ordering of a single room. */
  lemma PermsOfOne(x: Node)
    ensures Perms([x]) == [[x]]
  {
    assert RemoveAt([x], 0) == [];
    assert Perms<Node>([]) == [[]];
    var r := Prepend(x, [[]]);
    assert |r| == 1 && r[0] == [x] + [] == [x];
    assert r == [[x]];
    assert PermsFrom([x], 1) == [];
    assert PermsFrom([x], 0) == Prepend(x, Perms(RemoveAt([x], 0))) + PermsFrom([x], 1);
  }

  /** The orderings of a pair that start with its second room. */
  lemma PermsFromSecond(x: Node, y: Node)
    ensures PermsFrom([x, y], 1) == [[y, x]]
  {
    PermsOfOne(x);
    assert RemoveAt([x, y], 1) == [x];
    var r := Prepend(y, [[x]]);
    assert |r| == 1 && r[0] == [y] + [x] == [y, x];
    assert PermsFrom([x, y], 2) == [];
    assert PermsFrom([x, y], 1) == r + [];
  }

  /** The orderings of a pair that start with its first room. */
  lemma PermsFromFirst(x: Node, y: Node)
    ensures Prepend(x, Perms(RemoveAt([x, y], 0))) == [[x, y]]
  {
    PermsOfOne(y);
    assert RemoveAt([x, y], 0) == [y];
    var r := Prepend(x, [[y]]);
    assert |r| == 1 && r[0] == [x] + [y] == [x, y];
  }

  /** The two orderings of a pair, in enumeration order. */
  lemma PermsOfTwo(x: Node, y: Node)
    ensures Perms([x, y]) == [[x, y], [y, x]]
  {
    var s := [x, y];
    PermsFromFirst(x, y);
    PermsFromSecond(x, y);
    assert PermsFrom(s, 0) == Prepend(x, Perms(RemoveAt(s, 0))) + PermsFrom(s, 1);
  }

  /** From the first of three rooms, the other two remain, in order. */
  lemma RemainingOfThree(n: seq<Node>)
    requires |n| == 3 && n[0] != n[1] && n[0] != n[2]
    ensures RemainingNodes(n, [n[0]], n[0]) == [n[1], n[2]]
  {
    assert n[1..][1..][1..] == [];
    assert RemainingNodes(n[1..][1..][1..], [n[0]], n[0]) == [];
    assert RemainingNodes(n[1..][1..], [n[0]], n[0]) == [n[2]];
    assert RemainingNodes(n[1..], [n[0]], n[0]) == [n[1], n[2]];
  }

  /** The candidates of a three-room graph from its first room. */
  lemma OrderingsOfThree(g: Graph)
    requires |g.nodes| == 3 && g.nodes[0] != g.nodes[1] && g.nodes[0] != g.nodes[2]
    ensures var n := g.nodes;
            Orderings(g, [n[0]]) == [[n[0], n[1], n[2], n[0]], [n[0], n[2], n[1], n[0]]]
  {
    var n := g.nodes;
    RemainingOfThree(n);
    PermsOfTwo(n[1], n[2]);
    var cs := Orderings(g, [n[0]]);
    assert |cs| == 2;
    assert cs[0] == [n[0]] + [n[1], n[2]] + [n[0]] == [n[0], n[1], n[2], n[0]];
    assert cs[1] == [n[0]] + [n[2], n[1]] + [n[0]] == [n[0], n[2], n[1], n[0]];
  }

  /** A closed walk through three rooms, scored hallway by hallway. */
  lemma PathWeightOfFour(wd: map<(Node, Node), int>, a: Node, b: Node, c: Node, d: Node)
    ensures PathWeight(wd, [a, b, c, d])
            == if (a, b) !in wd then Err(MissingEdge(a, b))
               else if (b, c) !in wd then Err(MissingEdge(b, c))
               else if (c, d) !in wd then Err(MissingEdge(c, d))
               else Ok(wd[(a, b)] + wd[(b, c)] + wd[(c, d)])
  {
    assert [a, b, c, d][1..] == [b, c, d];
    assert [b, c, d][1..] == [c, d];
    assert [c, d][1..] == [d];
    assert PathWeight(wd, [d]) == Ok(0);
    assert PathWeight(wd, [c, d]) == if (c, d) !in wd then Err(MissingEdge(c, d)) else Ok(wd[(c, d)]);
    assert PathWeight(wd, [b, c, d])
           == if (b, c) !in wd then Err(MissingEdge(b, c))
              else if (c, d) !in wd then Err(MissingEdge(c, d))
              else Ok(wd[(b, c)] + wd[(c, d)]);
  }

  /* ---------- a self-loop passes the graph check ---------- */

  /** Three rooms, a hallway from A to itself, and no hallway between A and C. */
  const LoopBoard: seq<Triple> := [("A", "A", 1), ("A", "B", 1), ("B", "C", 1)]

  /** The graph the board builds, written out. */
  const LoopGraph := Graph(["A", "B", "C"], map[("A", "A") := 1, ("A", "B") := 1, ("B", "C") := 1])

  lemma LoopBoardGraph()
    ensures BoardToGraph(LoopBoard) == LoopGraph
  {
    var b1 := LoopBoard[..1];
    var b2 := LoopBoard[..2];
    assert b1 == [("A", "A", 1)];
    assert b2 == [("A", "A", 1), ("A", "B", 1)];
    assert LoopBoard[..3] == LoopBoard;
    assert BoardToGraph(b1[..0]) == EmptyGraph;
    assert BoardToGraph(b1) == Graph(["A"], map[("A", "A") := 1]);
    assert b2[..1] == b1;
    assert BoardToGraph(b2) == Graph(["A", "B"], map[("A", "A") := 1, ("A", "B") := 1]);
  }

  /**
   * The source's count test accepts this graph (three edges on three nodes,
   * all weights positive) although A and C are not joined.
   */
  lemma SelfLoopFoolsIsComplete()
    ensures var g := LoopGraph;
            && IsComplete(g) && PositiveWeights(g)
            && "A" in g.nodes && "C" in g.nodes && g.Lookup("A", "C") == None
            && !AllPairsJoined(g)
  {
    var g := LoopGraph;
    assert g.edges.Keys == {("A", "A"), ("A", "B"), ("B", "C")};
    assert |g.edges.Keys| == |g.edges|;
    assert "A" in g.nodes && "C" in g.nodes && g.Lookup("A", "C") == None;
  }

  /** The corrected count test rejects the same graph. */
  lemma SelfLoopCaughtBySimpleCount()
    ensures !IsCompleteSimple(LoopGraph)
  {
    SelfLoopFoolsIsComplete();
    LoopBoardGraph();
    BoardToGraphValid(LoopBoard);
    IsCompleteSimpleIffAllPairsJoined(LoopGraph);
  }

  /**
   * The board with a self-loop at A builds a graph that the source's check
   * accepts, yet solving from A fails: the first candidate A, B, C, A needs
   * the hallway from C back to A, which the board never names.
   */
  lemma SelfLoopBreaksSolve(getAll: bool)
    ensures IsComplete(BoardToGraph(LoopBoard)) && PositiveWeights(BoardToGraph(LoopBoard))
    ensures Solve(BoardToGraph(LoopBoard), ["A"], getAll) == Err(MissingEdge("C", "A"))
  {
    LoopBoardGraph();
    SelfLoopFoolsIsComplete();
    LoopFirstCandidateFails();
    ScanFailsOnFirst(WeightDict(LoopGraph), Orderings(LoopGraph, ["A"]), getAll, false);
  }

  /** The first candidate from A, the walk A, B, C, A, stops at the pair (C, A). */
  lemma LoopFirstCandidateFails()
    ensures |Orderings(LoopGraph, ["A"])| > 0
    ensures PathWeight(WeightDict(LoopGraph), Orderings(LoopGraph, ["A"])[0]) == Err(MissingEdge("C", "A"))
  {
    OrderingsOfThree(LoopGraph);
    LoopWeights();
    PathWeightOfFour(WeightDict(LoopGraph), "A", "B", "C", "A");
  }

  /** A and B, and B and C, are joined in both directions; C and A are not. */
  lemma LoopWeights()
    ensures var wd := WeightDict(LoopGraph);
            ("A", "B") in wd && ("B", "C") in wd && ("C", "A") !in wd
  {
    var g := LoopGraph;
    assert ("A", "C") !in g.edges && ("C", "A") !in g.edges;
    assert g.edges.Keys == {("A", "A"), ("A", "B"), ("B", "C")};
    assert forall e :: e in g.edges.Keys ==> (e.1, e.0) != ("C", "A");
  }

  /* ---------- tied tours keep their closing room ---------- */

  /** Three rooms joined in a triangle of unit hallways. */
  const TriangleBoard: seq<Triple> := [("L", "A", 1), ("A", "B", 1), ("B", "L", 1)]

  /** The graph the board builds, written out. */
  const TriangleGraph := Graph(["L", "A", "B"], map[("L", "A") := 1, ("A", "B") := 1, ("B", "L") := 1])

  lemma TriangleBoardGraph()
    ensures BoardToGraph(TriangleBoard) == TriangleGraph
  {
    var b1 := TriangleBoard[..1];
    var b2 := TriangleBoard[..2];
    assert b1 == [("L", "A", 1)];
    assert b2 == [("L", "A", 1), ("A", "B", 1)];
    assert TriangleBoard[..3] == TriangleBoard;
    assert BoardToGraph(b1[..0]) == EmptyGraph;
    assert BoardToGraph(b1) == Graph(["L", "A"], map[("L", "A") := 1]);
    assert b2[..1] == b1;
    assert BoardToGraph(b2) == Graph(["L", "A", "B"], map[("L", "A") := 1, ("A", "B") := 1]);
  }

  /** Every ordered pair of distinct triangle rooms weighs 1. */
  lemma TriangleWeights()
    ensures var wd := WeightDict(TriangleGraph);
            && ("L", "A") in wd && ("A", "B") in wd && ("B", "L") in wd
            && ("L", "B") in wd && ("B", "A") in wd && ("A", "L") in wd
            && wd[("L", "A")] == wd[("A", "B")] == wd[("B", "L")] == 1
            && wd[("L", "B")] == wd[("B", "A")] == wd[("A", "L")] == 1
  {
    var g := TriangleGraph;
    assert ("L", "A") in g.edges && ("A", "B") in g.edges && ("B", "L") in g.edges;
    assert ("A", "L") !in g.edges && ("B", "A") !in g.edges && ("L", "B") !in g.edges;
    assert ("A", "L") in FlippedKeys(g) && ("B", "A") in FlippedKeys(g) && ("L", "B") in FlippedKeys(g);
  }

  /** Both tours of the triangle from L have distance 3. */
  lemma TriangleCandidates()
    ensures Orderings(TriangleGraph, ["L"]) == [["L", "A", "B", "L"], ["L", "B", "A", "L"]]
    ensures PathWeight(WeightDict(TriangleGraph), ["L", "A", "B", "L"]) == Ok(3)
    ensures PathWeight(WeightDict(TriangleGraph), ["L", "B", "A", "L"]) == Ok(3)
  {
    OrderingsOfThree(TriangleGraph);
    TriangleWeights();
    PathWeightOfFour(WeightDict(TriangleGraph), "L", "A", "B", "L");
    PathWeightOfFour(WeightDict(TriangleGraph), "L", "B", "A", "L");
  }

  /** Scanning two tours of distance 3 keeps the first trimmed and the second as a tie. */
  lemma TriangleScan(wd: map<(Node, Node), int>, cs: seq<seq<Node>>, trimTies: bool)
    requires cs == [["L", "A", "B", "L"], ["L", "B", "A", "L"]]
    requires PathWeight(wd, cs[0]) == Ok(3) && PathWeight(wd, cs[1]) == Ok(3)
    ensures Scan(wd, cs, 2, true, trimTies)
            == Ok(Best([["L", "A", "B"], if trimTies then ["L", "B", "A"] else ["L", "B", "A", "L"]], 3))
  {
    assert Trim(cs[0]) == ["L", "A", "B"];
    assert Trim(cs[1]) == ["L", "B", "A"];
    assert Scan(wd, cs, 0, true, trimTies) == Ok(Best([], 0));
    assert Step(Best([], 0), cs[0], 3, true, trimTies) == Best([["L", "A", "B"]], 3);
    var first := Scan(wd, cs, 1, true, trimTies);
    assert first == Ok(Best([["L", "A", "B"]], 3));
    var tie := TieShape(cs[1], trimTies);
    assert tie == if trimTies then ["L", "B", "A"] else ["L", "B", "A", "L"];
    assert Step(first.value, cs[1], 3, true, trimTies) == Best([["L", "A", "B"]] + [tie], 3);
    assert [["L", "A", "B"]] + [tie] == [["L", "A", "B"], tie];
  }

  /**
   * As written, asking for every best tour of the triangle from L returns
   * the first tour without its closing room and the tied one with it.
   */
  lemma TiesKeepClosingRoom()
    ensures Solve(BoardToGraph(TriangleBoard), ["L"], true)
            == Ok(AllTours([["L", "A", "B"], ["L", "B", "A", "L"]], 3))
  {
    TriangleBoardGraph();
    TriangleCandidates();
    TriangleScan(WeightDict(TriangleGraph), Orderings(TriangleGraph, ["L"]), false);
  }

  /** The corrected solver stores both tied tours the same way. */
  lemma TrimmedTiesAgree()
    ensures SolveTrimmed(BoardToGraph(TriangleBoard), ["L"], true)
            == Ok(AllTours([["L", "A", "B"], ["L", "B", "A"]], 3))
  {
    TriangleBoardGraph();
    TriangleCandidates();
    TriangleScan(WeightDict(TriangleGraph), Orderings(TriangleGraph, ["L"]), true);
  }
}

=== FILE: graphs.dfy ===
/** Small failure-carrying wrappers shared by the model. */
module Results {

  datatype Option<+T> = None | Some(value: T)

  datatype Result<+T, +E> = Ok(value: T) | Err(error: E)
}

/**
 * The undirected weighted graph the tour solver works on, and its
 * construction from a board (a list of `(room, room, coins)` triples).
 *
 * A graph keeps its nodes in insertion order (the order the solver later
 * enumerates them in) and stores every undirected edge exactly once, under
 * the orientation in which it was first added.  Self-loops are allowed, as
 * they are for an undirected networkx graph.
 */
module Graphs {
  import opened Results

  type Node = string

  /** One board entry: two rooms and the coins on the hallway between them. */
  type Triple = (Node, Node, int)

  datatype Graph = Graph(nodes: seq<Node>, edges: map<(Node, Node), int>) {

    /** The representation invariant of an undirected simple-storage graph. */
    ghost predicate Valid() {
      && (forall i, j :: 0 <= i < j < |nodes| ==> nodes[i] != nodes[j])
      && (forall a, b :: (a, b) in edges ==> a in nodes && b in nodes)
      && (forall a, b :: (a, b) in edges && a != b ==> (b, a) !in edges)
    }

    /** The weight of the undirected edge {a, b}, whichever way it is stored. */
    function Lookup(a: Node, b: Node): Option<int> {
      if (a, b) in edges then Some(edges[(a, b)])
      else if (b, a) in edges then Some(edges[(b, a)])
      else None
    }
  }

  const EmptyGraph := Graph([], map[])

  /** Appends `x` to the node list unless it is already there. */
  function AddNode(ns: seq<Node>, x: Node): (r: seq<Node>)
    ensures forall y :: y in r <==> y in ns || y == x
  {
    if x in ns then ns else ns + [x]
  }

  /**
   * Adds (or re-weights) the undirected edge {u, v}: both endpoints become
   * nodes, u before v, and an edge already stored as (v, u) keeps that key.
   */
  function AddEdge(g: Graph, u: Node, v: Node, w: int): Graph {
    Graph(AddNode(AddNode(g.nodes, u), v),
          if (u, v) !in g.edges && (v, u) in g.edges then g.edges[(v, u) := w]
          else g.edges[(u, v) := w])
  }

  /** True when board entry `t` names the hallway between `a` and `b`. */
  predicate Joins(t: Triple, a: Node, b: Node) {
    (t.0 == a && t.1 == b) || (t.0 == b && t.1 == a)
  }

  /** Entry `i` is the last one of the board naming the hallway {a, b}. */
  ghost predicate IsLastJoin(board: seq<Triple>, i: int, a: Node, b: Node) {
    && 0 <= i < |board|
    && Joins(board[i], a, b)
    && forall j :: i < j < |board| ==> !Joins(board[j], a, b)
  }

  /** Builds the graph of a board by adding its entries one after the other. */
  function BoardToGraph(board: seq<Triple>): Graph {
    if |board| == 0 then EmptyGraph
    else
      var t := board[|board| - 1];
      AddEdge(BoardToGraph(board[..|board| - 1]), t.0, t.1, t.2)
  }

  /** A built graph satisfies the representation invariant. */
  lemma {:induction false} BoardToGraphValid(board: seq<Triple>)
    ensures BoardToGraph(board).Valid()
  {
    if |board| > 0 {
      var t := board[|board| - 1];
      BoardToGraphValid(board[..|board| - 1]);
      AddEdgeValid(BoardToGraph(board[..|board| - 1]), t.0, t.1, t.2);
    }
  }

  /** Some entry of the board has `x` at one of its ends. */
  ghost predicate Names(board: seq<Triple>, x: Node) {
    exists i :: 0 <= i < |board| && (board[i].0 == x || board[i].1 == x)
  }

  /** A board names `x` when its earlier entries or its last entry do. */
  lemma NamesStep(board: seq<Triple>, x: Node)
    requires |board| > 0
    ensures Names(board, x) <==> Names(board[..|board| - 1], x) || board[|board| - 1].0 == x || board[|board| - 1].1 == x
  {
    var pre := board[..|board| - 1];
    if Names(board, x) {
      var i :| 0 <= i < |board| && (board[i].0 == x || board[i].1 == x);
      if i < |pre| {
        assert pre[i] == board[i];
      }
    }
    if Names(pre, x) {
      var i :| 0 <= i < |pre| && (pre[i].0 == x || pre[i].1 == x);
      assert pre[i] == board[i];
    }
  }

  /** The rooms of the built graph are exactly the rooms the board names. */
  lemma {:induction false} BoardToGraphNodes(board: seq<Triple>, x: Node)
    ensures x in BoardToGraph(board).nodes <==> Names(board, x)
  {
    if |board| > 0 {
      var pre := board[..|board| - 1];
      var t := board[|board| - 1];
      BoardToGraphNodes(pre, x);
      NamesStep(board, x);
      assert BoardToGraph(board).nodes == AddNode(AddNode(BoardToGraph(pre).nodes, t.0), t.1);
    }
  }

  lemma AddEdgeValid(g: Graph, u: Node, v: Node, w: int)
    requires g.Valid()
    ensures AddEdge(g, u, v, w).Valid()
  {
    var r := AddEdge(g, u, v, w);
    var ns1 := AddNode(g.nodes, u);
    forall i, j | 0 <= i < j < |ns1| ensures ns1[i] != ns1[j] {
    }
    forall i, j | 0 <= i < j < |r.nodes| ensures r.nodes[i] != r.nodes[j] {
    }
  }

  /** Adding {u, v} sets that hallway's weight and leaves every other one alone. */
  lemma AddEdgeLookup(g: Graph, u: Node, v: Node, w: int, a: Node, b: Node)
    requires g.Valid()
    ensures Joins((u, v, w), a, b) ==> AddEdge(g, u, v, w).Lookup(a, b) == Some(w)
    ensures !Joins((u, v, w), a, b) ==> AddEdge(g, u, v, w).Lookup(a, b) == g.Lookup(a, b)
  {
    var r := AddEdge(g, u, v, w);
    if (u, v) !in g.edges && (v, u) in g.edges {
      assert r.edges == g.edges[(v, u) := w];
    } else {
      assert r.edges == g.edges[(u, v) := w];
    }
  }

  /** The last board entry alone decides whether it changes the weight of {a, b}. */
  lemma BoardToGraphLookupStep(board: seq<Triple>, a: Node, b: Node)
    requires |board| > 0
    ensures var t := board[|board| - 1];
            BoardToGraph(board).Lookup(a, b)
            == if Joins(t, a, b) then Some(t.2) else BoardToGraph(board[..|board| - 1]).Lookup(a, b)
  {
    var t := board[|board| - 1];
    BoardToGraphValid(board[..|board| - 1]);
    AddEdgeLookup(BoardToGraph(board[..|board| - 1]), t.0, t.1, t.2, a, b);
  }

  /**
   * The weight the built graph gives the hallway {a, b} is the weight of the
   * last board entry naming it.
   */
  lemma {:induction false} BoardToGraphLastWeight(board: seq<Triple>, i: int, a: Node, b: Node)
    requires IsLastJoin(board, i, a, b)
    ensures BoardToGraph(board).Lookup(a, b) == Some(board[i].2)
  {
    var pre := board[..|board| - 1];
    BoardToGraphLookupStep(board, a, b);
    if i < |board| - 1 {
      assert !Joins(board[|board| - 1], a, b);
      assert IsLastJoin(pre, i, a, b) by {
        assert forall j :: i < j < |pre| ==> pre[j] == board[j];
      }
      BoardToGraphLastWeight(pre, i, a, b);
    }
  }

  /** A hallway no board entry names is not an edge of the built graph. */
  lemma {:induction false} BoardToGraphUnnamed(board: seq<Triple>, a: Node, b: Node)
    requires forall i :: 0 <= i < |board| ==> !Joins(board[i], a, b)
    ensures BoardToGraph(board).Lookup(a, b) == None
  {
    if |board| > 0 {
      var pre := board[..|board| - 1];
      BoardToGraphLookupStep(board, a, b);
      assert forall i :: 0 <= i < |pre| ==> pre[i] == board[i];
      BoardToGraphUnnamed(pre, a, b);
    }
  }

  /** Every hallway some board entry names is an edge of the built graph. */
  lemma BoardToGraphCoversBoard(board: seq<Triple>, i: int)
    requires 0 <= i < |board|
    ensures BoardToGraph(board).Lookup(board[i].0, board[i].1).Some?
  {
    var t := board[i];
    var k := LastJoinExists(board, i, t.0, t.1);
    BoardToGraphLastWeight(board, k, t.0, t.1);
  }

  /** Whenever some entry names {a, b}, a last such entry exists. */
  lemma {:induction false} LastJoinExists(board: seq<Triple>, i: int, a: Node, b: Node) returns (k: int)
    requires 0 <= i < |board| && Joins(board[i], a, b)
    ensures IsLastJoin(board, k, a, b)
    decreases |board| - i
  {
    if forall j :: i < j < |board| ==> !Joins(board[j], a, b) {
      k := i;
    } else {
      var j :| i < j < |board| && Joins(board[j], a, b);
      k := LastJoinExists(board, j, a, b);
    }
  }

  /** In a valid graph the weight of {a, b} does not depend on the direction asked. */
  lemma LookupSymmetric(g: Graph, a: Node, b: Node)
    requires g.Valid()
    ensures g.Lookup(a, b) == g.Lookup(b, a)
  {
  }

  /* ---------- the order of the rooms ---------- */

  /** Position of the first occurrence of `x` in `ns`. */
  function IndexOf(ns: seq<Node>, x: Node): (i: nat)
    requires x in ns
    ensures i < |ns| && ns[i] == x
    ensures forall h :: 0 <= h < i ==> ns[h] != x
  {
    if ns[0] == x then 0 else 1 + IndexOf(ns[1..], x)
  }

  /** The rooms a board names, entry by entry, first end before second. */
  function Mentions(board: seq<Triple>): seq<Node> {
    if |board| == 0 then []
    else
      var t := board[|board| - 1];
      Mentions(board[..|board| - 1]) + [t.0, t.1]
  }

  /** `ns` lists each room of `ms` once, ordered by where `ms` first names it. */
  ghost predicate FirstMentionOrder(ns: seq<Node>, ms: seq<Node>) {
    && (forall x :: x in ns <==> x in ms)
    && (forall i, j :: 0 <= i < j < |ns| ==> ns[i] != ns[j])
    && (forall i, j :: 0 <= i < j < |ns| ==> ns[i] in ms && ns[j] in ms && IndexOf(ms, ns[i]) < IndexOf(ms, ns[j]))
  }

  /** Appending to `ms` leaves the first position of anything already in it unchanged. */
  lemma {:induction false} IndexOfAppend(ms: seq<Node>, x: Node, y: Node)
    requires y in ms
    ensures IndexOf(ms + [x], y) == IndexOf(ms, y)
  {
    if ms[0] != y {
      assert (ms + [x])[1..] == ms[1..] + [x];
      IndexOfAppend(ms[1..], x, y);
    }
  }

  /** A room not yet named is first named at the end. */
  lemma IndexOfNew(ms: seq<Node>, x: Node)
    requires x !in ms
    ensures IndexOf(ms + [x], x) == |ms|
  {
    assert forall h :: 0 <= h < |ms| ==> (ms + [x])[h] == ms[h] != x;
  }

  /** Adding the next named room keeps the node list in first-mention order. */
  lemma AddNodeKeepsOrder(ns: seq<Node>, ms: seq<Node>, x: Node)
    requires FirstMentionOrder(ns, ms)
    ensures FirstMentionOrder(AddNode(ns, x), ms + [x])
  {
    var ms' := ms + [x];
    forall y | y in ms
      ensures IndexOf(ms', y) == IndexOf(ms, y)
    {
      IndexOfAppend(ms, x, y);
    }
    if x !in ns {
      assert x !in ms;
      IndexOfNew(ms, x);
      var ns' := ns + [x];
      forall i, j | 0 <= i < j < |ns'|
        ensures ns'[i] in ms' && ns'[j] in ms' && IndexOf(ms', ns'[i]) < IndexOf(ms', ns'[j])
      {
        if j == |ns| {
          assert ns'[i] == ns[i] && ns[i] in ms;
        } else {
          assert ns'[i] == ns[i] && ns'[j] == ns[j];
        }
      }
    }
  }

  /** One board entry adds its two ends, in order, to both the node list and the mentions. */
  lemma AddEntryKeepsOrder(ns: seq<Node>, ms: seq<Node>, u: Node, v: Node)
    requires FirstMentionOrder(ns, ms)
    ensures FirstMentionOrder(AddNode(AddNode(ns, u), v), ms + [u, v])
  {
    AddNodeKeepsOrder(ns, ms, u);
    AddNodeKeepsOrder(AddNode(ns, u), ms + [u], v);
    assert ms + [u] + [v] == ms + [u, v];
  }

  /** The last entry of a board extends both its node list and its mentions. */
  lemma BoardStep(board: seq<Triple>)
    requires |board| > 0
    ensures var pre := board[..|board| - 1];
            var t := board[|board| - 1];
            && BoardToGraph(board).nodes == AddNode(AddNode(BoardToGraph(pre).nodes, t.0), t.1)
            && Mentions(board) == Mentions(pre) + [t.0, t.1]
  {
  }

  /**
   * The built graph lists every named room once, in the order the board
   * first names it (networkx's insertion order).
   */
  lemma {:induction false} BoardToGraphFirstMention(board: seq<Triple>)
    ensures FirstMentionOrder(BoardToGraph(board).nodes, Mentions(board))
  {
    if |board| > 0 {
      var pre := board[..|board| - 1];
      var t := board[|board| - 1];
      BoardToGraphFirstMention(pre);
      AddEntryKeepsOrder(BoardToGraph(pre).nodes, Mentions(pre), t.0, t.1);
      BoardStep(board);
    }
  }
}

=== FILE: permutations.dfy ===
/**
 * The orderings of a sequence, listed in the order Python's
 * `itertools.permutations` yields them: by the position of the first
 * element, then recursively on what is left.
 */
module Permutations {

  /** `s` without its element at position `i`. */
  function RemoveAt<T>(s: seq<T>, i: nat): (r: seq<T>)
    requires i < |s|
    ensures |r| == |s| - 1
    ensures multiset(r) + multiset{s[i]} == multiset(s)
  {
    assert s == s[..i] + [s[i]] + s[i + 1..];
    s[..i] + s[i + 1..]
  }

  /** Each ordering of `ps` with `x` put in front. */
  function Prepend<T>(x: T, ps: seq<seq<T>>): (r: seq<seq<T>>)
    ensures |r| == |ps|
    ensures forall j :: 0 <= j < |r| ==> |r[j]| > 0 && r[j][0] == x && r[j][1..] == ps[j]
    ensures forall j :: 0 <= j < |r| ==> multiset(r[j]) == multiset{x} + multiset(ps[j])
  {
    var r := seq(|ps|, j requires 0 <= j < |ps| => [x] + ps[j]);
    assert forall j :: 0 <= j < |ps| ==> r[j][1..] == ps[j];
    r
  }

  /** Every ordering of `s`, in enumeration order. */
  function Perms<T>(s: seq<T>): seq<seq<T>>
    decreases |s|, 1
  {
    if |s| == 0 then [[]] else PermsFrom(s, 0)
  }

  /** The orderings of `s` whose first element is taken from position `i` or later. */
  function PermsFrom<T>(s: seq<T>, i: nat): seq<seq<T>>
    requires i <= |s|
    decreases |s|, 0, |s| - i
  {
    if i == |s| then []
    else Prepend(s[i], Perms(RemoveAt(s, i))) + PermsFrom(s, i + 1)
  }

  function Factorial(n: nat): nat {
    if n == 0 then 1 else n * Factorial(n - 1)
  }

  /** Each listed ordering rearranges `s`: same elements, same multiplicities. */
  lemma {:induction false} PermsAreRearrangements<T>(s: seq<T>)
    ensures forall p :: p in Perms(s) ==> multiset(p) == multiset(s)
    decreases |s|, 1
  {
    if |s| > 0 {
      PermsFromAreRearrangements(s, 0);
    }
  }

  lemma {:induction false} PermsFromAreRearrangements<T>(s: seq<T>, i: nat)
    requires i <= |s|
    ensures forall p :: p in PermsFrom(s, i) ==> multiset(p) == multiset(s)
    decreases |s|, 0, |s| - i
  {
    if i < |s| {
      var rest := RemoveAt(s, i);
      PermsAreRearrangements(rest);
      PermsFromAreRearrangements(s, i + 1);
      var ps := Perms(rest);
      var head := Prepend(s[i], ps);
      forall j | 0 <= j < |head| ensures multiset(head[j]) == multiset(s) {
        assert ps[j] in ps;
        assert multiset(head[j]) == multiset{s[i]} + multiset(ps[j]);
      }
      assert PermsFrom(s, i) == head + PermsFrom(s, i + 1);
      forall p | p in PermsFrom(s, i) ensures multiset(p) == multiset(s) {
        if p !in PermsFrom(s, i + 1) {
          var j :| 0 <= j < |head| && head[j] == p;
        }
      }
    }
  }

  /** Every rearrangement of `s` is listed. */
  lemma {:induction false} PermsComplete<T>(s: seq<T>, q: seq<T>)
    requires multiset(q) == multiset(s)
    ensures q in Perms(s)
    decreases |s|, 1
  {
    if |s| == 0 {
      assert |q| == |multiset(q)| == 0;
    } else {
      assert |q| == |multiset(q)| == |s|;
      assert q[0] in multiset(s);
      var i :| 0 <= i < |s| && s[i] == q[0];
      PermsFromComplete(s, 0, i, q);
    }
  }

  lemma {:induction false} PermsFromComplete<T>(s: seq<T>, i: nat, k: nat, q: seq<T>)
    requires i <= k < |s|
    requires multiset(q) == multiset(s) && |q| > 0 && q[0] == s[k]
    ensures q in PermsFrom(s, i)
    decreases |s|, 0, |s| - i
  {
    if i == k {
      PermsHeadComplete(s, k, q);
    } else {
      PermsFromComplete(s, i + 1, k, q);
    }
  }

  /** A rearrangement starting with `s[k]` is among the orderings that take their head from position k. */
  lemma PermsHeadComplete<T>(s: seq<T>, k: nat, q: seq<T>)
    requires k < |s|
    requires multiset(q) == multiset(s) && |q| > 0 && q[0] == s[k]
    ensures q in Prepend(s[k], Perms(RemoveAt(s, k)))
    decreases |s|, 0, 0
  {
    var rest := RemoveAt(s, k);
    assert q == [q[0]] + q[1..];
    assert multiset(q[1..]) + multiset{q[0]} == multiset(q);
    assert multiset(q[1..]) == multiset(rest) by {
      forall y ensures multiset(q[1..])[y] == multiset(rest)[y] {
        assert multiset(q[1..])[y] + multiset{q[0]}[y] == multiset(q)[y];
        assert multiset(rest)[y] + multiset{s[k]}[y] == multiset(s)[y];
      }
    }
    PermsComplete(rest, q[1..]);
    var j :| 0 <= j < |Perms(rest)| && Perms(rest)[j] == q[1..];
    assert Prepend(s[k], Perms(rest))[j] == q;
  }

  /** The enumeration lists |s|! orderings, so it is never empty. */
  lemma {:induction false} PermsCount<T>(s: seq<T>)
    ensures |Perms(s)| == Factorial(|s|)
    decreases |s|, 1
  {
    if |s| > 0 {
      PermsFromCount(s, 0);
    }
  }

  lemma {:induction false} PermsFromCount<T>(s: seq<T>, i: nat)
    requires i <= |s|
    requires |s| > 0
    ensures |PermsFrom(s, i)| == (|s| - i) * Factorial(|s| - 1)
    decreases |s|, 0, |s| - i
  {
    if i < |s| {
      PermsCount(RemoveAt(s, i));
      PermsFromCount(s, i + 1);
      PermsFromCountStep(s, i);
    }
  }

  lemma PermsFromCountStep<T>(s: seq<T>, i: nat)
    requires i < |s|
    requires |Perms(RemoveAt(s, i))| == Factorial(|RemoveAt(s, i)|)
    requires |PermsFrom(s, i + 1)| == (|s| - (i + 1)) * Factorial(|s| - 1)
    ensures |PermsFrom(s, i)| == (|s| - i) * Factorial(|s| - 1)
  {
    PermsFromLength(s, i);
    CountStep(|PermsFrom(s, i)|, |Perms(RemoveAt(s, i))|, |PermsFrom(s, i + 1)|, |s| - (i + 1), Factorial(|s| - 1));
  }

  lemma CountStep(total: nat, head: nat, rest: nat, b: nat, f: nat)
    requires total == head + rest && head == f && rest == b * f
    ensures total == (b + 1) * f
  {
  }

  /** One step of `PermsFrom` adds as many orderings as the rest of `s` has. */
  lemma PermsFromLength<T>(s: seq<T>, i: nat)
    requires i < |s|
    ensures |PermsFrom(s, i)| == |Perms(RemoveAt(s, i))| + |PermsFrom(s, i + 1)|
  {
  }

  lemma FactorialPositive(n: nat)
    ensures Factorial(n) > 0
  {
  }

  /* ---------- element counts ---------- */

  ghost predicate Distinct<T>(s: seq<T>) {
    forall i, j :: 0 <= i < j < |s| ==> s[i] != s[j]
  }

  /** In a duplicate-free sequence every element occurs exactly once. */
  lemma {:induction false} DistinctOccursOnce<T>(s: seq<T>, x: T)
    requires Distinct(s)
    ensures multiset(s)[x] == if x in s then 1 else 0
  {
    if |s| > 0 {
      assert s == [s[0]] + s[1..];
      DistinctOccursOnce(s[1..], x);
      assert s[0] !in s[1..];
    }
  }

  /** An element at two positions occurs at least twice. */
  lemma RepeatOccursTwice<T>(s: seq<T>, i: int, j: int)
    requires 0 <= i < j < |s| && s[i] == s[j]
    ensures multiset(s)[s[i]] >= 2
  {
    assert s == s[..j] + s[j..];
    assert s[i] in s[..j];
    assert s[j] in s[j..];
    assert multiset(s)[s[i]] == multiset(s[..j])[s[i]] + multiset(s[j..])[s[i]];
  }

  /** Every rearrangement of a duplicate-free sequence is duplicate-free. */
  lemma PermOfDistinctIsDistinct<T>(s: seq<T>, p: seq<T>)
    requires Distinct(s) && multiset(p) == multiset(s)
    ensures Distinct(p)
  {
    forall i, j | 0 <= i < j < |p| ensures p[i] != p[j] {
      if p[i] == p[j] {
        RepeatOccursTwice(p, i, j);
        DistinctOccursOnce(s, p[i]);
        assert false;
      }
    }
  }

  /** Two duplicate-free sequences with no common element concatenate to a duplicate-free one. */
  lemma DistinctConcat<T>(s: seq<T>, t: seq<T>)
    requires Distinct(s) && Distinct(t)
    requires forall x :: x in t ==> x !in s
    ensures Distinct(s + t)
  {
    var u := s + t;
    forall i, j | 0 <= i < j < |u| ensures u[i] != u[j] {
      if j < |s| {
        assert u[i] == s[i] && u[j] == s[j];
      } else if i < |s| {
        assert u[j] == t[j - |s|] && u[j] in t;
        assert u[i] == s[i];
      } else {
        assert u[i] == t[i - |s|] && u[j] == t[j - |s|];
      }
    }
  }

  /** Removing one element keeps a sequence duplicate-free. */
  lemma RemoveAtDistinct<T>(s: seq<T>, i: nat)
    requires i < |s| && Distinct(s)
    ensures Distinct(RemoveAt(s, i))
    ensures s[i] !in RemoveAt(s, i)
  {
    var r := RemoveAt(s, i);
    forall a, b | 0 <= a < b < |r| ensures r[a] != r[b] {
      var a' := if a < i then a else a + 1;
      var b' := if b < i then b else b + 1;
      assert r[a] == s[a'] && r[b] == s[b'];
    }
    forall a | 0 <= a < |r| ensures r[a] != s[i] {
      assert r[a] == s[if a < i then a else a + 1];
    }
  }

  /** Orderings of a duplicate-free sequence are listed once each. */
  lemma {:induction false} PermsDistinct<T>(s: seq<T>)
    requires Distinct(s)
    ensures Distinct(Perms(s))
    decreases |s|, 1
  {
    if |s| > 0 {
      PermsFromDistinct(s, 0);
    }
  }

  lemma {:induction false} PermsFromDistinct<T>(s: seq<T>, i: nat)
    requires i <= |s| && Distinct(s)
    ensures Distinct(PermsFrom(s, i))
    ensures forall p :: p in PermsFrom(s, i) ==> |p| > 0 && p[0] in s[i..]
    decreases |s|, 0, |s| - i
  {
    if i < |s| {
      var rest := RemoveAt(s, i);
      RemoveAtDistinct(s, i);
      PermsDistinct(rest);
      PermsFromDistinct(s, i + 1);
      var ps := Perms(rest);
      var head := Prepend(s[i], ps);
      var tail := PermsFrom(s, i + 1);
      forall a, b | 0 <= a < b < |head| ensures head[a] != head[b] {
        assert head[a][1..] == ps[a] && head[b][1..] == ps[b];
      }
      forall a | 0 <= a < |head| ensures |head[a]| > 0 && head[a][0] == s[i] {
        assert head[a] == [s[i]] + ps[a];
      }
      forall p | p in tail ensures p !in head {
        assert p[0] in s[i + 1..];
        var m :| i + 1 <= m < |s| && s[m] == p[0];
        assert p[0] != s[i];
      }
      DistinctConcat(head, tail);
      forall p | p in PermsFrom(s, i) ensures |p| > 0 && p[0] in s[i..] {
        if p in head {
          var a :| 0 <= a < |head| && head[a] == p;
          assert p[0] == s[i] == s[i..][0];
        } else {
          assert p in tail;
          var m :| i + 1 <= m < |s| && s[m] == p[0] by {
            assert p[0] in s[i + 1..];
          }
          assert s[i..][m - i] == p[0];
        }
      }
    }
  }
}

=== FILE: scan.dfy ===
/**
 * What the solver's scan keeps, stated without the fold: the best distance
 * is the largest candidate distance (or 0 when none is positive), the first
 * kept tour is the first candidate that reaches it, and the remaining kept
 * tours are the later candidates that tie with it.
 */
module ScanProperties {
  import opened Results
  import opened Graphs
  import opened TourSolver
  import opened Permutations

  /** Candidate `j` is the first one whose lookups fail. */
  ghost predicate FirstFailing(wd: map<(Node, Node), int>, cands: seq<seq<Node>>, j: int) {
    && 0 <= j < |cands|
    && PathWeight(wd, cands[j]).Err?
    && forall i :: 0 <= i < j ==> PathWeight(wd, cands[i]).Ok?
  }

  /** Candidate `k` is the first one of distance `d`, and every earlier one is strictly shorter. */
  ghost predicate FirstBest(wd: map<(Node, Node), int>, cands: seq<seq<Node>>, k: int, d: int) {
    && 0 <= k < |cands|
    && PathWeight(wd, cands[k]) == Ok(d)
    && forall j :: 0 <= j < k ==> PathWeight(wd, cands[j]).Ok? && PathWeight(wd, cands[j]).value < d
  }

  /** The candidates at positions lo..hi-1 of distance exactly `d`, in order, stored as ties are. */
  function Ties(wd: map<(Node, Node), int>, cands: seq<seq<Node>>, lo: nat, hi: nat, d: int, trimTies: bool)
    : seq<seq<Node>>
    requires hi <= |cands|
  {
    if hi <= lo then []
    else
      Ties(wd, cands, lo, hi - 1, d, trimTies)
      + (if PathWeight(wd, cands[hi - 1]) == Ok(d) then [TieShape(cands[hi - 1], trimTies)] else [])
  }

  /** Every candidate among the first `n` is scored and at most `d`. */
  ghost predicate Bounds(wd: map<(Node, Node), int>, cands: seq<seq<Node>>, n: nat, d: int)
    requires n <= |cands|
  {
    forall j :: 0 <= j < n ==> PathWeight(wd, cands[j]).Ok? && PathWeight(wd, cands[j]).value <= d
  }

  /** What the scan over the first `n` candidates keeps, described without the fold. */
  ghost predicate Kept(wd: map<(Node, Node), int>, cands: seq<seq<Node>>, n: nat, getAll: bool, trimTies: bool, b: Best)
    requires n <= |cands|
  {
    && b.distance >= 0
    && Bounds(wd, cands, n, b.distance)
    && (b.distance > 0 ==>
          exists k :: 0 <= k < n && FirstBest(wd, cands, k, b.distance)
                      && b.tours == [Trim(cands[k])] + (if getAll then Ties(wd, cands, k + 1, n, b.distance, trimTies) else []))
    && (b.distance == 0 ==> b.tours == (if getAll then Ties(wd, cands, 0, n, 0, trimTies) else []))
  }

  /**
   * The scan fails exactly when some candidate cannot be scored, and then
   * with the error of the first such candidate.
   */
  lemma {:induction false} ScanErrors(wd: map<(Node, Node), int>, cands: seq<seq<Node>>, n: nat, getAll: bool, trimTies: bool)
    requires n <= |cands|
    ensures Scan(wd, cands, n, getAll, trimTies).Ok? <==> forall j :: 0 <= j < n ==> PathWeight(wd, cands[j]).Ok?
    ensures Scan(wd, cands, n, getAll, trimTies).Err? ==>
              exists j :: 0 <= j < n && FirstFailing(wd, cands, j)
                          && PathWeight(wd, cands[j]) == Err(Scan(wd, cands, n, getAll, trimTies).error)
  {
    if n > 0 {
      ScanErrors(wd, cands, n - 1, getAll, trimTies);
      if Scan(wd, cands, n - 1, getAll, trimTies).Ok? && PathWeight(wd, cands[n - 1]).Err? {
        assert FirstFailing(wd, cands, n - 1);
      }
    }
  }

  /** With every candidate scored, the scan succeeds and keeps what `Kept` describes. */
  lemma {:induction false} ScanKeeps(wd: map<(Node, Node), int>, cands: seq<seq<Node>>, n: nat, getAll: bool, trimTies: bool)
    requires n <= |cands|
    requires forall j :: 0 <= j < n ==> PathWeight(wd, cands[j]).Ok?
    ensures Scan(wd, cands, n, getAll, trimTies).Ok?
    ensures Kept(wd, cands, n, getAll, trimTies, Scan(wd, cands, n, getAll, trimTies).value)
  {
    if n == 0 {
      return;
    }
    ScanKeeps(wd, cands, n - 1, getAll, trimTies);
    var prev := Scan(wd, cands, n - 1, getAll, trimTies).value;
    var w := PathWeight(wd, cands[n - 1]).value;
    assert Scan(wd, cands, n, getAll, trimTies) == Ok(Step(prev, cands[n - 1], w, getAll, trimTies));
    if w > prev.distance {
      KeptNewBest(wd, cands, n, getAll, trimTies, prev);
    } else if getAll && w == prev.distance {
      KeptTie(wd, cands, n, trimTies, prev);
    } else {
      KeptUnchanged(wd, cands, n, getAll, trimTies, prev);
    }
  }

  /** A strictly longer candidate becomes the only kept tour. */
  lemma KeptNewBest(wd: map<(Node, Node), int>, cands: seq<seq<Node>>, n: nat, getAll: bool, trimTies: bool, prev: Best)
    requires 0 < n <= |cands|
    requires Kept(wd, cands, n - 1, getAll, trimTies, prev)
    requires PathWeight(wd, cands[n - 1]).Ok? && PathWeight(wd, cands[n - 1]).value > prev.distance
    ensures Kept(wd, cands, n, getAll, trimTies, Best([Trim(cands[n - 1])], PathWeight(wd, cands[n - 1]).value))
  {
    var w := PathWeight(wd, cands[n - 1]).value;
    assert FirstBest(wd, cands, n - 1, w);
    assert Ties(wd, cands, n, n, w, trimTies) == [];
    assert Bounds(wd, cands, n, w);
  }

  /** A candidate equal to the kept distance is appended when ties are kept. */
  lemma KeptTie(wd: map<(Node, Node), int>, cands: seq<seq<Node>>, n: nat, trimTies: bool, prev: Best)
    requires 0 < n <= |cands|
    requires Kept(wd, cands, n - 1, true, trimTies, prev)
    requires PathWeight(wd, cands[n - 1]) == Ok(prev.distance)
    ensures Kept(wd, cands, n, true, trimTies, Best(prev.tours + [TieShape(cands[n - 1], trimTies)], prev.distance))
  {
    var d := prev.distance;
    var t := TieShape(cands[n - 1], trimTies);
    if d > 0 {
      var k :| 0 <= k < n - 1 && FirstBest(wd, cands, k, d)
               && prev.tours == [Trim(cands[k])] + Ties(wd, cands, k + 1, n - 1, d, trimTies);
      assert Ties(wd, cands, k + 1, n, d, trimTies) == Ties(wd, cands, k + 1, n - 1, d, trimTies) + [t];
      assert prev.tours + [t] == [Trim(cands[k])] + Ties(wd, cands, k + 1, n, d, trimTies);
    } else {
      assert Ties(wd, cands, 0, n, 0, trimTies) == Ties(wd, cands, 0, n - 1, 0, trimTies) + [t];
    }
  }

  /** A shorter candidate, or an equal one when ties are not kept, changes nothing. */
  lemma KeptUnchanged(wd: map<(Node, Node), int>, cands: seq<seq<Node>>, n: nat, getAll: bool, trimTies: bool, prev: Best)
    requires 0 < n <= |cands|
    requires Kept(wd, cands, n - 1, getAll, trimTies, prev)
    requires PathWeight(wd, cands[n - 1]).Ok? && PathWeight(wd, cands[n - 1]).value <= prev.distance
    requires getAll ==> PathWeight(wd, cands[n - 1]).value < prev.distance
    ensures Kept(wd, cands, n, getAll, trimTies, prev)
  {
    var d := prev.distance;
    if getAll {
      if d > 0 {
        var k :| 0 <= k < n - 1 && FirstBest(wd, cands, k, d)
                 && prev.tours == [Trim(cands[k])] + Ties(wd, cands, k + 1, n - 1, d, trimTies);
        assert Ties(wd, cands, k + 1, n, d, trimTies) == Ties(wd, cands, k + 1, n - 1, d, trimTies);
      } else {
        assert Ties(wd, cands, 0, n, 0, trimTies) == Ties(wd, cands, 0, n - 1, 0, trimTies);
      }
    } else if d > 0 {
      var k :| 0 <= k < n - 1 && FirstBest(wd, cands, k, d) && prev.tours == [Trim(cands[k])];
    }
  }

  /** A tie list holds exactly the candidates in its range that reach the distance. */
  lemma {:induction false} TiesMembers(wd: map<(Node, Node), int>, cands: seq<seq<Node>>, lo: nat, hi: nat, d: int, trimTies: bool, t: seq<Node>)
    requires hi <= |cands|
    ensures t in Ties(wd, cands, lo, hi, d, trimTies) <==>
              exists j :: lo <= j < hi && PathWeight(wd, cands[j]) == Ok(d) && t == TieShape(cands[j], trimTies)
  {
    if lo < hi {
      TiesMembers(wd, cands, lo, hi - 1, d, trimTies, t);
      var last := if PathWeight(wd, cands[hi - 1]) == Ok(d) then [TieShape(cands[hi - 1], trimTies)] else [];
      assert Ties(wd, cands, lo, hi, d, trimTies) == Ties(wd, cands, lo, hi - 1, d, trimTies) + last;
      assert t in last <==> PathWeight(wd, cands[hi - 1]) == Ok(d) && t == TieShape(cands[hi - 1], trimTies);
    }
  }

  /** Every entry of a tie list is a candidate of the tied distance, stored as a tie. */
  lemma {:induction false} TiesAt(wd: map<(Node, Node), int>, cands: seq<seq<Node>>, lo: nat, hi: nat, d: int, trimTies: bool, i: int)
    requires hi <= |cands|
    requires 0 <= i < |Ties(wd, cands, lo, hi, d, trimTies)|
    ensures exists j :: lo <= j < hi && PathWeight(wd, cands[j]) == Ok(d)
                        && Ties(wd, cands, lo, hi, d, trimTies)[i] == TieShape(cands[j], trimTies)
  {
    var ts := Ties(wd, cands, lo, hi, d, trimTies);
    assert ts[i] in ts;
    TiesMembers(wd, cands, lo, hi, d, trimTies, ts[i]);
  }

  /** The kept distance is 0 or the distance of some candidate. */
  lemma ScanReachesDistance(wd: map<(Node, Node), int>, cands: seq<seq<Node>>, n: nat, getAll: bool, trimTies: bool)
    requires n <= |cands|
    requires forall j :: 0 <= j < n ==> PathWeight(wd, cands[j]).Ok?
    ensures Scan(wd, cands, n, getAll, trimTies).Ok?
    ensures var d := Scan(wd, cands, n, getAll, trimTies).value.distance;
            d == 0 || exists j :: 0 <= j < n && PathWeight(wd, cands[j]) == Ok(d)
  {
    ScanKeeps(wd, cands, n, getAll, trimTies);
  }

  /**
   * Every kept tour is a candidate of the kept distance: the first one
   * trimmed when that distance is positive, the others stored as ties are.
   */
  lemma ScanTourShape(wd: map<(Node, Node), int>, cands: seq<seq<Node>>, getAll: bool, trimTies: bool, i: int)
    requires Scan(wd, cands, |cands|, getAll, trimTies).Ok?
    requires 0 <= i < |Scan(wd, cands, |cands|, getAll, trimTies).value.tours|
    ensures var b := Scan(wd, cands, |cands|, getAll, trimTies).value;
            exists j :: 0 <= j < |cands| && PathWeight(wd, cands[j]) == Ok(b.distance)
                        && b.tours[i] == if i == 0 && b.distance > 0 then Trim(cands[j]) else TieShape(cands[j], trimTies)
  {
    ScanErrors(wd, cands, |cands|, getAll, trimTies);
    ScanKeeps(wd, cands, |cands|, getAll, trimTies);
    KeptTourShape(wd, cands, getAll, trimTies, Scan(wd, cands, |cands|, getAll, trimTies).value, i);
  }

  /** The tour shapes that `Kept` allows. */
  lemma KeptTourShape(wd: map<(Node, Node), int>, cands: seq<seq<Node>>, getAll: bool, trimTies: bool, b: Best, i: int)
    requires Kept(wd, cands, |cands|, getAll, trimTies, b)
    requires 0 <= i < |b.tours|
    ensures exists j :: 0 <= j < |cands| && PathWeight(wd, cands[j]) == Ok(b.distance)
                        && b.tours[i] == if i == 0 && b.distance > 0 then Trim(cands[j]) else TieShape(cands[j], trimTies)
  {
    var n := |cands|;
    var d := b.distance;
    if d > 0 {
      var k :| 0 <= k < n && FirstBest(wd, cands, k, d)
               && b.tours == [Trim(cands[k])] + (if getAll then Ties(wd, cands, k + 1, n, d, trimTies) else []);
      var j := BestOrTieAt(wd, cands, k, d, getAll, trimTies, i);
      assert b.tours[i] == if i == 0 then Trim(cands[j]) else TieShape(cands[j], trimTies);
    } else if getAll {
      TiesAt(wd, cands, 0, n, 0, trimTies, i);
      var j :| 0 <= j < n && PathWeight(wd, cands[j]) == Ok(0) && b.tours[i] == TieShape(cands[j], trimTies);
      assert PathWeight(wd, cands[j]) == Ok(d);
    }
  }

  /** Entry i of the first best tour followed by its ties comes from a candidate of that distance. */
  lemma BestOrTieAt(wd: map<(Node, Node), int>, cands: seq<seq<Node>>, k: int, d: int, getAll: bool, trimTies: bool, i: int)
    returns (j: int)
    requires 0 <= k < |cands| && PathWeight(wd, cands[k]) == Ok(d)
    requires 0 <= i < |[Trim(cands[k])] + (if getAll then Ties(wd, cands, k + 1, |cands|, d, trimTies) else [])|
    ensures 0 <= j < |cands| && PathWeight(wd, cands[j]) == Ok(d)
    ensures ([Trim(cands[k])] + (if getAll then Ties(wd, cands, k + 1, |cands|, d, trimTies) else []))[i]
            == if i == 0 then Trim(cands[j]) else TieShape(cands[j], trimTies)
  {
    if i == 0 {
      j := k;
    } else {
      var ties := Ties(wd, cands, k + 1, |cands|, d, trimTies);
      TiesAt(wd, cands, k + 1, |cands|, d, trimTies, i - 1);
      j :| k + 1 <= j < |cands| && PathWeight(wd, cands[j]) == Ok(d) && ties[i - 1] == TieShape(cands[j], trimTies);
    }
  }

  /**
   * The scan keeps no tour exactly when no candidate reaches the starting
   * distance 0: none is positive when one tour is kept, none is
   * non-negative when ties are kept too (a tie at 0 is kept).
   */
  lemma ScanKeepsNothing(wd: map<(Node, Node), int>, cands: seq<seq<Node>>, getAll: bool, trimTies: bool)
    requires forall j :: 0 <= j < |cands| ==> PathWeight(wd, cands[j]).Ok?
    ensures Scan(wd, cands, |cands|, getAll, trimTies).Ok?
    ensures Scan(wd, cands, |cands|, getAll, trimTies).value.tours == [] <==>
              forall j :: 0 <= j < |cands| ==>
                if getAll then PathWeight(wd, cands[j]).value < 0 else PathWeight(wd, cands[j]).value <= 0
  {
    var n := |cands|;
    ScanKeeps(wd, cands, n, getAll, trimTies);
    ScanReachesDistance(wd, cands, n, getAll, trimTies);
    var b := Scan(wd, cands, n, getAll, trimTies).value;
    if getAll {
      if forall j :: 0 <= j < n ==> PathWeight(wd, cands[j]).value < 0 {
        assert b.distance == 0;
        if b.tours != [] {
          TiesAt(wd, cands, 0, n, 0, trimTies, 0);
        }
      } else {
        var j :| 0 <= j < n && PathWeight(wd, cands[j]).value >= 0;
        if b.distance == 0 {
          TiesMembers(wd, cands, 0, n, 0, trimTies, TieShape(cands[j], trimTies));
        }
      }
    } else if !forall j :: 0 <= j < n ==> PathWeight(wd, cands[j]).value <= 0 {
      var j :| 0 <= j < n && PathWeight(wd, cands[j]).value > 0;
      assert b.distance > 0;
    }
  }

  /** Distinct candidates stay distinct once stored as ties are. */
  ghost predicate ShapesDistinct(cands: seq<seq<Node>>, trimTies: bool) {
    forall j, k :: 0 <= j < k < |cands| ==> TieShape(cands[j], trimTies) != TieShape(cands[k], trimTies)
  }

  /** Every candidate has `len` rooms. */
  ghost predicate SameLength(cands: seq<seq<Node>>, len: nat) {
    forall j :: 0 <= j < |cands| ==> |cands[j]| == len
  }

  /** A tie list built from candidates whose stored shapes differ repeats no tour. */
  lemma {:induction false} TiesDistinct(wd: map<(Node, Node), int>, cands: seq<seq<Node>>, lo: nat, hi: nat, d: int, trimTies: bool)
    requires hi <= |cands| && ShapesDistinct(cands, trimTies)
    ensures Distinct(Ties(wd, cands, lo, hi, d, trimTies))
  {
    if lo < hi {
      TiesDistinct(wd, cands, lo, hi - 1, d, trimTies);
      var earlier := Ties(wd, cands, lo, hi - 1, d, trimTies);
      var t := TieShape(cands[hi - 1], trimTies);
      forall u | u in earlier ensures u != t {
        TiesMembers(wd, cands, lo, hi - 1, d, trimTies, u);
      }
      DistinctConcat(earlier, if PathWeight(wd, cands[hi - 1]) == Ok(d) then [t] else []);
    }
  }

  /** Candidates that differ without their closing rooms differ with them too. */
  lemma TrimmedDistinctMeansDistinct(cands: seq<seq<Node>>, trimTies: bool)
    requires ShapesDistinct(cands, true)
    ensures ShapesDistinct(cands, trimTies)
  {
    forall j, k | 0 <= j < k < |cands| ensures TieShape(cands[j], trimTies) != TieShape(cands[k], trimTies) {
      assert Trim(cands[j]) != Trim(cands[k]);
    }
  }

  /** A later candidate, stored as a tie, differs from an earlier one trimmed. */
  lemma ShapeDiffersFromTrimmed(cands: seq<seq<Node>>, k: int, j: int, trimTies: bool, len: nat)
    requires 0 <= k < j < |cands|
    requires ShapesDistinct(cands, true) && SameLength(cands, len) && len > 0
    ensures TieShape(cands[j], trimTies) != Trim(cands[k])
  {
    if !trimTies {
      assert |cands[j]| == len && |Trim(cands[k])| == len - 1;
    }
  }

  /** The first best tour, trimmed, is not among the later ties. */
  lemma FirstNotTied(wd: map<(Node, Node), int>, cands: seq<seq<Node>>, k: nat, n: nat, d: int, trimTies: bool, len: nat)
    requires k < n <= |cands|
    requires ShapesDistinct(cands, true) && SameLength(cands, len) && len > 0
    ensures Trim(cands[k]) !in Ties(wd, cands, k + 1, n, d, trimTies)
  {
    var ties := Ties(wd, cands, k + 1, n, d, trimTies);
    forall i | 0 <= i < |ties| ensures ties[i] != Trim(cands[k]) {
      TiesAt(wd, cands, k + 1, n, d, trimTies, i);
      var j :| k + 1 <= j < n && PathWeight(wd, cands[j]) == Ok(d) && ties[i] == TieShape(cands[j], trimTies);
      ShapeDiffersFromTrimmed(cands, k, j, trimTies, len);
    }
  }

  /**
   * When the candidates have one length and differ even without their
   * closing rooms, the scan keeps no tour twice.
   */
  lemma ScanToursDistinct(wd: map<(Node, Node), int>, cands: seq<seq<Node>>, getAll: bool, trimTies: bool, len: nat)
    requires Scan(wd, cands, |cands|, getAll, trimTies).Ok?
    requires ShapesDistinct(cands, true) && SameLength(cands, len) && len > 0
    ensures Distinct(Scan(wd, cands, |cands|, getAll, trimTies).value.tours)
  {
    var n := |cands|;
    TrimmedDistinctMeansDistinct(cands, trimTies);
    ScanErrors(wd, cands, n, getAll, trimTies);
    ScanKeeps(wd, cands, n, getAll, trimTies);
    var b := Scan(wd, cands, n, getAll, trimTies).value;
    if b.distance > 0 {
      var k :| 0 <= k < n && FirstBest(wd, cands, k, b.distance)
               && b.tours == [Trim(cands[k])] + (if getAll then Ties(wd, cands, k + 1, n, b.distance, trimTies) else []);
      BestAndTiesDistinct(wd, cands, k, n, b.distance, getAll, trimTies, len);
    } else if getAll {
      TiesDistinct(wd, cands, 0, n, 0, trimTies);
    }
  }

  /** The first best tour, trimmed, followed by the later ties, repeats no tour. */
  lemma BestAndTiesDistinct(wd: map<(Node, Node), int>, cands: seq<seq<Node>>, k: nat, n: nat, d: int,
                            getAll: bool, trimTies: bool, len: nat)
    requires k < n <= |cands|
    requires ShapesDistinct(cands, true) && ShapesDistinct(cands, trimTies) && SameLength(cands, len) && len > 0
    ensures Distinct([Trim(cands[k])] + (if getAll then Ties(wd, cands, k + 1, n, d, trimTies) else []))
  {
    if getAll {
      TiesDistinct(wd, cands, k + 1, n, d, trimTies);
      FirstNotTied(wd, cands, k, n, d, trimTies, len);
      DistinctConcat([Trim(cands[k])], Ties(wd, cands, k + 1, n, d, trimTies));
    }
  }

  /** A scan whose first candidate cannot be scored fails with that candidate's error. */
  lemma ScanFailsOnFirst(wd: map<(Node, Node), int>, cands: seq<seq<Node>>, getAll: bool, trimTies: bool)
    requires |cands| > 0 && PathWeight(wd, cands[0]).Err?
    ensures Scan(wd, cands, |cands|, getAll, trimTies) == Err(PathWeight(wd, cands[0]).error)
  {
    ScanErrors(wd, cands, |cands|, getAll, trimTies);
    assert FirstFailing(wd, cands, 0);
  }
}

=== FILE: solve_props.dfy ===
/**
 * Properties of the solver as a whole: the weight table, the shape of every
 * candidate, optimality, the exact tours returned in each mode, when it
 * fails, and when it cannot fail.
 */
module SolveProperties {
  import opened Results
  import opened Graphs
  import opened Completeness
  import opened Permutations
  import opened TourSolver
  import opened ScanProperties

  /* ---------- the weight table ---------- */

  /**
   * The weight table of a valid graph answers for (a, b) exactly when {a, b}
   * is an edge, with that edge's weight, the same in both directions.
   */
  lemma WeightDictSymmetric(g: Graph)
    requires g.Valid()
    ensures forall a, b :: (a, b) in WeightDict(g) <==> g.Lookup(a, b).Some?
    ensures forall a, b :: (a, b) in WeightDict(g) ==>
              WeightDict(g)[(a, b)] == g.Lookup(a, b).value && WeightDict(g)[(b, a)] == WeightDict(g)[(a, b)]
    ensures forall a, b :: (a, b) in g.edges ==>
              WeightDict(g)[(a, b)] == g.edges[(a, b)] && WeightDict(g)[(b, a)] == g.edges[(a, b)]
  {
    var wd := WeightDict(g);
    forall a, b ensures (a, b) in wd <==> g.Lookup(a, b).Some? {
      if (b, a) in g.edges {
        assert (a, b) in FlippedKeys(g);
      }
    }
    forall a, b | (a, b) in wd
      ensures wd[(a, b)] == g.Lookup(a, b).value && (b, a) in wd && wd[(b, a)] == wd[(a, b)]
    {
      LookupSymmetric(g, a, b);
      if (a, b) !in g.edges {
        assert (b, a) in g.edges by {
          var e :| e in g.edges.Keys && (e.1, e.0) == (a, b);
        }
      }
      assert (b, a) in wd by {
        if (a, b) in g.edges {
          assert (b, a) in FlippedKeys(g);
        }
      }
    }
  }

  /** Every weight in the table is some edge's weight. */
  lemma WeightDictPositive(g: Graph)
    requires PositiveWeights(g)
    ensures forall k :: k in WeightDict(g) ==> WeightDict(g)[k] > 0
  {
    forall k | k in WeightDict(g) ensures WeightDict(g)[k] > 0 {
      if k !in g.edges {
        assert (k.1, k.0) in g.edges by {
          var e :| e in g.edges.Keys && (e.1, e.0) == k;
        }
      }
    }
  }

  /* ---------- walk weights ---------- */

  /**
   * Scoring is additive from the other end too: extending a scored walk by
   * one more room adds exactly the weight of the new hallway, and fails
   * exactly when that hallway is missing.
   */
  lemma {:induction false} PathWeightSnoc(wd: map<(Node, Node), int>, o: seq<Node>, x: Node)
    requires |o| > 0 && PathWeight(wd, o).Ok?
    ensures (o[|o| - 1], x) in wd ==> PathWeight(wd, o + [x]) == Ok(PathWeight(wd, o).value + wd[(o[|o| - 1], x)])
    ensures (o[|o| - 1], x) !in wd ==> PathWeight(wd, o + [x]) == Err(MissingEdge(o[|o| - 1], x))
  {
    var ox := o + [x];
    if |o| > 1 {
      assert ox[1..] == o[1..] + [x];
      assert (o[0], o[1]) in wd;
      PathWeightSnoc(wd, o[1..], x);
      assert o[1..][|o[1..]| - 1] == o[|o| - 1];
    }
  }

  /* ---------- the candidates ---------- */

  function Remaining(g: Graph, prefix: seq<Node>): seq<Node> {
    RemainingNodes(g.nodes, prefix, StartNode(prefix))
  }

  /**
   * Every candidate is the prefix, then each room outside the prefix and
   * other than the start exactly once, then the start.
   */
  lemma CandidateShape(g: Graph, prefix: seq<Node>, j: int)
    requires Distinct(g.nodes)
    requires 0 <= j < |Orderings(g, prefix)|
    ensures var c := Orderings(g, prefix)[j];
            && |c| == |prefix| + |Remaining(g, prefix)| + 1
            && c[..|prefix|] == prefix
            && c[|c| - 1] == StartNode(prefix)
            && forall x :: multiset(c[|prefix|..|c| - 1])[x]
                           == if x in g.nodes && x !in prefix && x != StartNode(prefix) then 1 else 0
  {
    var rem := Remaining(g, prefix);
    var ps := Perms(rem);
    var c := Orderings(g, prefix)[j];
    assert c == prefix + ps[j] + [StartNode(prefix)];
    assert ps[j] in ps;
    PermsAreRearrangements(rem);
    assert c[|prefix|..|c| - 1] == ps[j];
    assert |ps[j]| == |multiset(ps[j])| == |rem|;
    forall x ensures multiset(ps[j])[x] == if x in g.nodes && x !in prefix && x != StartNode(prefix) then 1 else 0 {
      DistinctOccursOnce(rem, x);
    }
  }

  /** Duplicate-free sequences with the same elements are rearrangements of each other. */
  lemma SameElementsSameMultiset(s: seq<Node>, t: seq<Node>)
    requires Distinct(s) && Distinct(t)
    requires forall x :: x in s <==> x in t
    ensures multiset(s) == multiset(t)
  {
    forall x ensures multiset(s)[x] == multiset(t)[x] {
      DistinctOccursOnce(s, x);
      DistinctOccursOnce(t, x);
    }
  }

  /**
   * For a duplicate-free prefix of rooms of the graph, every candidate is a
   * closed tour: it starts and ends at the start room and, dropping the
   * closing room, visits every room of the graph exactly once.
   */
  lemma CandidateIsTour(g: Graph, prefix: seq<Node>, j: int)
    requires Distinct(g.nodes)
    requires |prefix| > 0 && Distinct(prefix) && forall x :: x in prefix ==> x in g.nodes
    requires 0 <= j < |Orderings(g, prefix)|
    ensures var c := Orderings(g, prefix)[j];
            && c[0] == c[|c| - 1] == prefix[0]
            && multiset(Trim(c)) == multiset(g.nodes)
  {
    var rem := Remaining(g, prefix);
    var ps := Perms(rem);
    var c := Orderings(g, prefix)[j];
    assert c == prefix + ps[j] + [prefix[0]];
    assert ps[j] in ps;
    PermsAreRearrangements(rem);
    PermOfDistinctIsDistinct(rem, ps[j]);
    forall x | x in ps[j] ensures x in rem && x !in prefix {
      assert x in multiset(ps[j]);
    }
    DistinctConcat(prefix, ps[j]);
    assert Trim(c) == prefix + ps[j];
    forall x ensures x in prefix + ps[j] <==> x in g.nodes {
      if x in g.nodes && x !in prefix {
        assert x in multiset(rem);
      }
    }
    SameElementsSameMultiset(prefix + ps[j], g.nodes);
  }

  /* ---------- results ---------- */

  /**
   * The solver fails with a missing edge exactly when some candidate has a
   * consecutive pair absent from the weight table, and the reported pair is
   * the first missing pair of the first such candidate.
   */
  lemma SolveMissingEdge(g: Graph, prefix: seq<Node>, getAll: bool)
    ensures var cs := Orderings(g, prefix);
            var r := Solve(g, prefix, getAll);
            && (r.Err? && r.error.MissingEdge? <==> exists j :: 0 <= j < |cs| && PathWeight(WeightDict(g), cs[j]).Err?)
            && (r.Err? && r.error.MissingEdge? ==>
                  exists j :: FirstFailing(WeightDict(g), cs, j) && PathWeight(WeightDict(g), cs[j]) == Err(r.error))
  {
    var cs := Orderings(g, prefix);
    var wd := WeightDict(g);
    ScanErrors(wd, cs, |cs|, getAll, false);
    if Scan(wd, cs, |cs|, getAll, false).Err? {
      var j :| 0 <= j < |cs| && FirstFailing(wd, cs, j) && PathWeight(wd, cs[j]) == Err(Scan(wd, cs, |cs|, getAll, false).error);
      assert PathWeight(wd, cs[j]).error.MissingEdge?;
    }
  }

  /**
   * Single-tour mode, every candidate scored: the solver fails with "no valid
   * tour" exactly when no candidate is strictly positive; otherwise it
   * returns the first candidate of maximal distance, without its closing
   * room, and that distance, which is positive and bounds every candidate.
   */
  lemma SolveBestTour(g: Graph, prefix: seq<Node>)
    requires forall j :: 0 <= j < |Orderings(g, prefix)| ==> PathWeight(WeightDict(g), Orderings(g, prefix)[j]).Ok?
    ensures var cs := Orderings(g, prefix);
            var r := Solve(g, prefix, false);
            && (r == Err(NoValidTour) <==> forall j :: 0 <= j < |cs| ==> PathWeight(WeightDict(g), cs[j]).value <= 0)
            && (r.Err? ==> r == Err(NoValidTour))
            && (r.Ok? ==>
                  && r.value.OneTour?
                  && r.value.distance > 0
                  && Bounds(WeightDict(g), cs, |cs|, r.value.distance)
                  && exists k :: FirstBest(WeightDict(g), cs, k, r.value.distance) && r.value.tour == Trim(cs[k]))
  {
    var cs := Orderings(g, prefix);
    var wd := WeightDict(g);
    ScanKeeps(wd, cs, |cs|, false, false);
    ScanKeepsNothing(wd, cs, false, false);
  }

  /**
   * All-tours mode, every candidate scored: the solver fails with "no valid
   * tour" exactly when every candidate is negative.  Otherwise the distance
   * bounds every candidate and, when positive, the tours are the first
   * maximal candidate without its closing room followed by every later
   * candidate of that distance with it; when it stays 0 the tours are every
   * candidate of distance 0, each with its closing room.
   */
  lemma SolveAllTours(g: Graph, prefix: seq<Node>)
    requires forall j :: 0 <= j < |Orderings(g, prefix)| ==> PathWeight(WeightDict(g), Orderings(g, prefix)[j]).Ok?
    ensures var cs := Orderings(g, prefix);
            var wd := WeightDict(g);
            var r := Solve(g, prefix, true);
            && (r == Err(NoValidTour) <==> forall j :: 0 <= j < |cs| ==> PathWeight(wd, cs[j]).value < 0)
            && (r.Err? ==> r == Err(NoValidTour))
            && (r.Ok? ==>
                  && r.value.AllTours?
                  && r.value.distance >= 0
                  && Bounds(wd, cs, |cs|, r.value.distance)
                  && (r.value.distance > 0 ==>
                        exists k :: FirstBest(wd, cs, k, r.value.distance)
                                    && r.value.tours == [Trim(cs[k])] + Ties(wd, cs, k + 1, |cs|, r.value.distance, false))
                  && (r.value.distance == 0 ==> r.value.tours == Ties(wd, cs, 0, |cs|, 0, false)))
  {
    var cs := Orderings(g, prefix);
    var wd := WeightDict(g);
    ScanKeeps(wd, cs, |cs|, true, false);
    ScanKeepsNothing(wd, cs, true, false);
  }

  /**
   * In all-tours mode every returned tour is a candidate of the returned
   * distance: the first one trimmed of its closing room when that distance
   * is positive, every other one closed.
   */
  lemma SolveAllToursShape(g: Graph, prefix: seq<Node>, i: int)
    requires Solve(g, prefix, true).Ok?
    requires 0 <= i < |Solve(g, prefix, true).value.tours|
    ensures var cs := Orderings(g, prefix);
            var a := Solve(g, prefix, true).value;
            && a.AllTours?
            && exists j :: 0 <= j < |cs| && PathWeight(WeightDict(g), cs[j]) == Ok(a.distance)
                           && a.tours[i] == if i == 0 && a.distance > 0 then Trim(cs[j]) else cs[j]
  {
    var cs := Orderings(g, prefix);
    var b := Scan(WeightDict(g), cs, |cs|, true, false).value;
    assert Solve(g, prefix, true) == Ok(AllTours(b.tours, b.distance));
    ScanTourShape(WeightDict(g), cs, true, false, i);
  }

  /**
   * The corrected solver stores every tour the same way: each returned tour
   * is a candidate of the returned distance without its closing room.
   */
  lemma SolveTrimmedShape(g: Graph, prefix: seq<Node>, i: int)
    requires SolveTrimmed(g, prefix, true).Ok?
    requires 0 <= i < |SolveTrimmed(g, prefix, true).value.tours|
    ensures var cs := Orderings(g, prefix);
            var a := SolveTrimmed(g, prefix, true).value;
            && a.AllTours?
            && (exists j :: 0 <= j < |cs| && PathWeight(WeightDict(g), cs[j]) == Ok(a.distance) && a.tours[i] == Trim(cs[j]))
            && PathWeight(WeightDict(g), a.tours[i] + [StartNode(prefix)]) == Ok(a.distance)
  {
    var cs := Orderings(g, prefix);
    var b := Scan(WeightDict(g), cs, |cs|, true, true).value;
    assert SolveTrimmed(g, prefix, true) == Ok(AllTours(b.tours, b.distance));
    ScanTourShape(WeightDict(g), cs, true, true, i);
    var j :| 0 <= j < |cs| && PathWeight(WeightDict(g), cs[j]) == Ok(b.distance) && b.tours[i] == TieShape(cs[j], true);
    TrimThenClose(g, prefix, j);
  }

  /** Closing a trimmed candidate back to the start gives the candidate again. */
  lemma TrimThenClose(g: Graph, prefix: seq<Node>, j: int)
    requires 0 <= j < |Orderings(g, prefix)|
    ensures Trim(Orderings(g, prefix)[j]) + [StartNode(prefix)] == Orderings(g, prefix)[j]
  {
    var c := Orderings(g, prefix)[j];
    var body := prefix + Perms(RemainingNodes(g.nodes, prefix, StartNode(prefix)))[j];
    assert c == body + [StartNode(prefix)];
    assert Trim(c) == body;
  }

  /**
   * In single-tour mode the returned distance is the weight of the returned
   * tour closed back to its start room.
   */
  lemma SolveTourScoresDistance(g: Graph, prefix: seq<Node>)
    requires Solve(g, prefix, false).Ok?
    ensures var a := Solve(g, prefix, false).value;
            && a.OneTour?
            && PathWeight(WeightDict(g), a.tour + [StartNode(prefix)]) == Ok(a.distance)
  {
    var cs := Orderings(g, prefix);
    var wd := WeightDict(g);
    var b := Scan(wd, cs, |cs|, false, false).value;
    ScanErrors(wd, cs, |cs|, false, false);
    ScanKeeps(wd, cs, |cs|, false, false);
    assert Solve(g, prefix, false) == Ok(OneTour(b.tours[0], b.distance));
    assert b.distance > 0;
    ScanTourShape(wd, cs, false, false, 0);
    var j :| 0 <= j < |cs| && PathWeight(wd, cs[j]) == Ok(b.distance) && b.tours[0] == Trim(cs[j]);
    TrimThenClose(g, prefix, j);
  }

  /** Candidates have one length and differ even without their closing rooms. */
  lemma OrderingsDistinct(g: Graph, prefix: seq<Node>)
    requires Distinct(g.nodes)
    ensures ShapesDistinct(Orderings(g, prefix), true)
    ensures SameLength(Orderings(g, prefix), |prefix| + |Remaining(g, prefix)| + 1)
  {
    var rem := Remaining(g, prefix);
    var ps := Perms(rem);
    var cs := Orderings(g, prefix);
    PermsDistinct(rem);
    forall j, k | 0 <= j < k < |cs| ensures TieShape(cs[j], true) != TieShape(cs[k], true) {
      assert cs[j] == (prefix + ps[j]) + [StartNode(prefix)];
      assert cs[k] == (prefix + ps[k]) + [StartNode(prefix)];
      assert Trim(cs[j]) == prefix + ps[j];
      assert Trim(cs[k]) == prefix + ps[k];
      assert (prefix + ps[j])[|prefix|..] == ps[j];
      assert (prefix + ps[k])[|prefix|..] == ps[k];
    }
    forall j | 0 <= j < |cs| ensures |cs[j]| == |prefix| + |rem| + 1 {
      CandidateShape(g, prefix, j);
    }
  }

  /**
   * In all-tours mode no tour is returned twice, whichever way ties are
   * stored.
   */
  lemma SolveToursDistinct(g: Graph, prefix: seq<Node>, trimTies: bool)
    requires Distinct(g.nodes)
    requires SolveWith(g, prefix, true, trimTies).Ok?
    ensures SolveWith(g, prefix, true, trimTies).value.AllTours?
    ensures Distinct(SolveWith(g, prefix, true, trimTies).value.tours)
  {
    var cs := Orderings(g, prefix);
    OrderingsDistinct(g, prefix);
    ScanToursDistinct(WeightDict(g), cs, true, trimTies, |prefix| + |Remaining(g, prefix)| + 1);
  }

  /**
   * Optimality: whenever the solver succeeds, as written or with ties stored
   * trimmed, every closed walk that extends the prefix by some ordering of
   * the remaining rooms can be scored, and scores at most the returned
   * distance.
   */
  lemma SolveOptimal(g: Graph, prefix: seq<Node>, getAll: bool, trimTies: bool, q: seq<Node>)
    requires SolveWith(g, prefix, getAll, trimTies).Ok?
    requires multiset(q) == multiset(Remaining(g, prefix))
    ensures PathWeight(WeightDict(g), prefix + q + [StartNode(prefix)]).Ok?
    ensures PathWeight(WeightDict(g), prefix + q + [StartNode(prefix)]).value <= SolveWith(g, prefix, getAll, trimTies).value.distance
  {
    var cs := Orderings(g, prefix);
    var wd := WeightDict(g);
    var ps := Perms(Remaining(g, prefix));
    PermsComplete(Remaining(g, prefix), q);
    var j :| 0 <= j < |ps| && ps[j] == q;
    assert cs[j] == prefix + q + [StartNode(prefix)];
    ScanErrors(wd, cs, |cs|, getAll, trimTies);
    ScanKeeps(wd, cs, |cs|, getAll, trimTies);
  }

  /**
   * With an empty prefix the start defaults to "L" and the candidates are
   * `p + ["L"]`: the single tour returned then never contains "L", and its
   * distance omits the hallway from "L" to its first room.
   */
  lemma EmptyPrefixTourSkipsStart(g: Graph)
    requires Solve(g, [], false).Ok?
    ensures var a := Solve(g, [], false).value;
            && a.OneTour?
            && DefaultStart !in a.tour
            && PathWeight(WeightDict(g), a.tour + [DefaultStart]) == Ok(a.distance)
  {
    var cs := Orderings(g, []);
    var wd := WeightDict(g);
    var b := Scan(wd, cs, |cs|, false, false).value;
    ScanErrors(wd, cs, |cs|, false, false);
    ScanKeeps(wd, cs, |cs|, false, false);
    assert Solve(g, [], false) == Ok(OneTour(b.tours[0], b.distance));
    assert b.distance > 0;
    ScanTourShape(wd, cs, false, false, 0);
    var j :| 0 <= j < |cs| && PathWeight(wd, cs[j]) == Ok(b.distance) && b.tours[0] == Trim(cs[j]);
    EmptyPrefixCandidate(g, j);
  }

  /** Each candidate for an empty prefix is an ordering without "L", then "L". */
  lemma EmptyPrefixCandidate(g: Graph, j: int)
    requires 0 <= j < |Orderings(g, [])|
    ensures var c := Orderings(g, [])[j];
            |c| > 0 && c[|c| - 1] == DefaultStart && DefaultStart !in c[..|c| - 1] && DefaultStart !in Trim(c)
  {
    var rem := Remaining(g, []);
    var ps := Perms(rem);
    var c := Orderings(g, [])[j];
    assert c == [] + ps[j] + [DefaultStart];
    assert c[..|c| - 1] == ps[j];
    assert ps[j] in ps;
    PermsAreRearrangements(rem);
    forall x | x in ps[j] ensures x in rem {
      assert x in multiset(ps[j]);
    }
  }

  /* ---------- when the solver cannot fail ---------- */

  /**
   * Rooms left to order: with at most one prefix room (or none and room "L"),
   * a graph of two or more rooms always leaves at least one.
   */
  lemma RemainingNonEmpty(g: Graph, prefix: seq<Node>)
    requires Distinct(g.nodes) && |g.nodes| >= 2
    requires |prefix| <= 1 && StartNode(prefix) in g.nodes
    ensures |Remaining(g, prefix)| >= 1
  {
    var start := StartNode(prefix);
    var other := if g.nodes[0] != start then g.nodes[0] else g.nodes[1];
    assert other in g.nodes && other != start;
    assert other !in prefix by {
      if |prefix| == 1 {
        assert prefix == [start];
      }
    }
    assert other in Remaining(g, prefix);
  }

  /** The middle of a candidate is a duplicate-free ordering of the remaining rooms. */
  lemma CandidateMiddle(g: Graph, prefix: seq<Node>, j: int) returns (p: seq<Node>)
    requires Distinct(g.nodes)
    requires 0 <= j < |Orderings(g, prefix)|
    ensures Orderings(g, prefix)[j] == prefix + p + [StartNode(prefix)]
    ensures multiset(p) == multiset(Remaining(g, prefix)) && |p| == |Remaining(g, prefix)|
    ensures Distinct(p) && forall x :: x in p ==> x in g.nodes && x !in prefix && x != StartNode(prefix)
  {
    var rem := Remaining(g, prefix);
    var ps := Perms(rem);
    p := ps[j];
    assert p in ps;
    PermsAreRearrangements(rem);
    PermOfDistinctIsDistinct(rem, p);
    assert |p| == |multiset(p)| == |multiset(rem)| == |rem|;
    forall x | x in p ensures x in rem {
      assert x in multiset(p);
    }
  }

  /** Every candidate for a proper prefix has at least one hallway. */
  lemma CandidateLength(g: Graph, prefix: seq<Node>, j: int)
    requires Distinct(g.nodes) && |g.nodes| >= 2
    requires Distinct(prefix) && forall x :: x in prefix ==> x in g.nodes
    requires |prefix| > 0 || DefaultStart in g.nodes
    requires 0 <= j < |Orderings(g, prefix)|
    ensures |prefix| >= 1 ==> |prefix| + |Remaining(g, prefix)| >= 2
    ensures |Orderings(g, prefix)[j]| >= 2
  {
    var p := CandidateMiddle(g, prefix, j);
    if |prefix| <= 1 {
      RemainingNonEmpty(g, prefix);
    }
  }

  /** Consecutive rooms of every candidate are distinct rooms of the graph. */
  lemma CandidateStepsAreEdges(g: Graph, prefix: seq<Node>, j: int, i: int)
    requires Distinct(g.nodes) && |g.nodes| >= 2
    requires Distinct(prefix) && forall x :: x in prefix ==> x in g.nodes
    requires |prefix| > 0 || DefaultStart in g.nodes
    requires 0 <= j < |Orderings(g, prefix)|
    requires 0 <= i < |Orderings(g, prefix)[j]| - 1
    ensures var c := Orderings(g, prefix)[j];
            c[i] in g.nodes && c[i + 1] in g.nodes && c[i] != c[i + 1]
  {
    var start := StartNode(prefix);
    var c := Orderings(g, prefix)[j];
    var p := CandidateMiddle(g, prefix, j);
    CandidateLength(g, prefix, j);
    DistinctConcat(prefix, p);
    var s := prefix + p;
    assert c == s + [start];
    if i < |s| - 1 {
      assert c[i] == s[i] && c[i + 1] == s[i + 1];
    } else {
      assert c[i] == s[|s| - 1] && c[i + 1] == start;
      if |prefix| > 0 {
        assert s[0] == start;
      } else {
        assert s[|s| - 1] in p;
      }
    }
  }

  /**
   * The solver cannot fail on a valid graph in which every two distinct rooms
   * are joined by a positive weight, with at least two rooms, when the
   * prefix is a duplicate-free list of rooms (or empty with room "L" present).
   * This holds for both ways of storing ties.
   */
  lemma SolveSucceeds(g: Graph, prefix: seq<Node>, getAll: bool, trimTies: bool)
    requires g.Valid() && AllPairsJoined(g) && PositiveWeights(g)
    requires |g.nodes| >= 2
    requires Distinct(prefix) && forall x :: x in prefix ==> x in g.nodes
    requires |prefix| > 0 || DefaultStart in g.nodes
    ensures SolveWith(g, prefix, getAll, trimTies).Ok?
    ensures SolveWith(g, prefix, getAll, trimTies).value.distance > 0
  {
    var cs := Orderings(g, prefix);
    var wd := WeightDict(g);
    WeightDictSymmetric(g);
    WeightDictPositive(g);
    forall j | 0 <= j < |cs| ensures PathWeight(wd, cs[j]).Ok? && PathWeight(wd, cs[j]).value > 0 {
      forall i | 0 <= i < |cs[j]| - 1 ensures (cs[j][i], cs[j][i + 1]) in wd {
        CandidateStepsAreEdges(g, prefix, j, i);
      }
      CandidateLength(g, prefix, j);
    }
    PermsCount(Remaining(g, prefix));
    FactorialPositive(|Remaining(g, prefix)|);
    ScanKeeps(wd, cs, |cs|, getAll, trimTies);
    var b := Scan(wd, cs, |cs|, getAll, trimTies).value;
    assert PathWeight(wd, cs[0]).value <= b.distance;
  }

  /**
   * The graph check of the source is enough for the solver when the graph
   * has no self-loops: once it passes, the solver cannot fail.
   */
  lemma ValidatedLoopFreeSolveSucceeds(g: Graph, prefix: seq<Node>, getAll: bool)
    requires g.Valid() && NoSelfLoops(g)
    requires IsComplete(g) && PositiveWeights(g)
    requires |g.nodes| >= 2
    requires Distinct(prefix) && forall x :: x in prefix ==> x in g.nodes
    requires |prefix| > 0 || DefaultStart in g.nodes
    ensures Solve(g, prefix, getAll).Ok?
  {
    IsCompleteIffAllPairsJoined(g);
    SolveSucceeds(g, prefix, getAll, false);
  }

  /** With the corrected count test, passing the check is enough for any valid graph. */
  lemma StrictlyValidatedSolveSucceeds(g: Graph, prefix: seq<Node>, getAll: bool)
    requires g.Valid()
    requires IsCompleteSimple(g) && PositiveWeights(g)
    requires |g.nodes| >= 2
    requires Distinct(prefix) && forall x :: x in prefix ==> x in g.nodes
    requires |prefix| > 0 || DefaultStart in g.nodes
    ensures Solve(g, prefix, getAll).Ok?
    ensures SolveTrimmed(g, prefix, getAll).Ok?
  {
    IsCompleteSimpleIffAllPairsJoined(g);
    SolveSucceeds(g, prefix, getAll, false);
    SolveSucceeds(g, prefix, getAll, true);
  }
}

=== FILE: solver.dfy ===
/**
 * The exhaustive tour solver: every ordering of the rooms outside the
 * required prefix is scored as the closed walk `prefix + ordering + [start]`,
 * and the best one (or, on request, every tied best one) is kept.
 *
 * The scan is a left fold over the orderings in enumeration order that
 * mirrors the source's bookkeeping exactly: the best distance starts at 0,
 * only a strictly larger distance replaces the best tour, the replacing tour
 * is stored without its closing room, and a tie (kept only when all tours
 * are requested) is stored with it.
 */
module TourSolver {
  import opened Results
  import opened Graphs
  import opened Permutations

  /** The room a tour starts at when no prefix is given. */
  const DefaultStart: Node := "L"

  datatype SolveError =
    | MissingEdge(from: Node, to: Node)  // the weight lookup of a consecutive pair failed
    | NoValidTour                        // no candidate was kept

  datatype Answer =
    | OneTour(tour: seq<Node>, distance: int)
    | AllTours(tours: seq<seq<Node>>, distance: int)

  /** The best distance so far and the tours kept for it. */
  datatype Best = Best(tours: seq<seq<Node>>, distance: int)

  function StartNode(prefix: seq<Node>): Node {
    if |prefix| > 0 then prefix[0] else DefaultStart
  }

  /** The graph's rooms, in graph order, that are neither in the prefix nor the start. */
  function RemainingNodes(nodes: seq<Node>, prefix: seq<Node>, start: Node): (r: seq<Node>)
    ensures forall x :: x in r <==> x in nodes && x !in prefix && x != start
    ensures Distinct(nodes) ==> Distinct(r)
  {
    if |nodes| == 0 then []
    else
      var rest := RemainingNodes(nodes[1..], prefix, start);
      assert forall x :: x in nodes <==> x == nodes[0] || x in nodes[1..];
      if nodes[0] !in prefix && nodes[0] != start then [nodes[0]] + rest else rest
  }

  /** The keys of `g` turned around. */
  function FlippedKeys(g: Graph): set<(Node, Node)> {
    set e | e in g.edges.Keys :: (e.1, e.0)
  }

  /** The weight table of the solver: every stored edge under both of its orientations. */
  function WeightDict(g: Graph): map<(Node, Node), int> {
    map k | k in g.edges.Keys + FlippedKeys(g) ::
      if k in g.edges then g.edges[k]
      else assert (k.1, k.0) in g.edges; g.edges[(k.1, k.0)]
  }

  /**
   * The summed weight of the consecutive pairs of `o`, or the first pair the
   * table lacks.
   */
  function PathWeight(wd: map<(Node, Node), int>, o: seq<Node>): (r: Result<int, SolveError>)
    ensures r.Ok? <==> forall i :: 0 <= i < |o| - 1 ==> (o[i], o[i + 1]) in wd
    ensures r.Err? ==> exists i :: 0 <= i < |o| - 1 && FirstMissing(wd, o, i) && r.error == MissingEdge(o[i], o[i + 1])
    ensures r.Ok? && |o| >= 2 && (forall k :: k in wd ==> wd[k] > 0) ==> r.value > 0
  {
    if |o| < 2 then Ok(0)
    else if (o[0], o[1]) !in wd then
      assert FirstMissing(wd, o, 0);
      Err(MissingEdge(o[0], o[1]))
    else
      var tail := PathWeight(wd, o[1..]);
      if tail.Err? then
        var i :| 0 <= i < |o| - 2 && FirstMissing(wd, o[1..], i) && tail.error == MissingEdge(o[1..][i], o[1..][i + 1]);
        assert FirstMissing(wd, o, i + 1);
        Err(tail.error)
      else
        assert forall i :: 0 <= i < |o| - 1 ==> (o[i], o[i + 1]) in wd by {
          forall i | 0 <= i < |o| - 1 ensures (o[i], o[i + 1]) in wd {
            if i > 0 {
              assert (o[1..][i - 1], o[1..][i]) in wd;
            }
          }
        }
        Ok(wd[(o[0], o[1])] + tail.value)
  }

  /** Position `i` holds the first consecutive pair of `o` the table lacks. */
  predicate FirstMissing(wd: map<(Node, Node), int>, o: seq<Node>, i: int) {
    && 0 <= i < |o| - 1
    && (o[i], o[i + 1]) !in wd
    && forall h :: 0 <= h < i ==> (o[h], o[h + 1]) in wd
  }

  /** The source's `ordering[:-1]`. */
  function Trim(o: seq<Node>): seq<Node> {
    if |o| == 0 then o else o[..|o| - 1]
  }

  /** How a tied tour is stored: as is (the source), or trimmed like the first best. */
  function TieShape(o: seq<Node>, trimTies: bool): seq<Node> {
    if trimTies then Trim(o) else o
  }

  /** One iteration of the scan over a candidate `o` of distance `d`. */
  function Step(acc: Best, o: seq<Node>, d: int, getAll: bool, trimTies: bool): Best {
    if d > acc.distance then Best([Trim(o)], d)
    else if getAll && d == acc.distance then Best(acc.tours + [TieShape(o, trimTies)], acc.distance)
    else acc
  }

  /** The candidate orderings, `prefix + p + [start]` for each enumerated `p`. */
  function Candidates(prefix: seq<Node>, perms: seq<seq<Node>>, start: Node): seq<seq<Node>> {
    seq(|perms|, j requires 0 <= j < |perms| => prefix + perms[j] + [start])
  }

  /** The left fold of `Step` over the first `n` candidates, starting from no tour at distance 0. */
  function Scan(wd: map<(Node, Node), int>, cands: seq<seq<Node>>, n: nat, getAll: bool, trimTies: bool)
    : Result<Best, SolveError>
    requires n <= |cands|
  {
    if n == 0 then Ok(Best([], 0))
    else
      match Scan(wd, cands, n - 1, getAll, trimTies)
      case Err(e) => Err(e)
      case Ok(acc) =>
        match PathWeight(wd, cands[n - 1])
        case Err(e) => Err(e)
        case Ok(d) => Ok(Step(acc, cands[n - 1], d, getAll, trimTies))
  }

  /** The candidates the solver scores for `g` and `prefix`, in enumeration order. */
  function Orderings(g: Graph, prefix: seq<Node>): seq<seq<Node>> {
    var start := StartNode(prefix);
    Candidates(prefix, Perms(RemainingNodes(g.nodes, prefix, start)), start)
  }

  function SolveWith(g: Graph, prefix: seq<Node>, getAll: bool, trimTies: bool): Result<Answer, SolveError> {
    var cands := Orderings(g, prefix);
    match Scan(WeightDict(g), cands, |cands|, getAll, trimTies)
    case Err(e) => Err(e)
    case Ok(b) =>
      if b.tours == [] then Err(NoValidTour)
      else if getAll then Ok(AllTours(b.tours, b.distance))
      else Ok(OneTour(b.tours[0], b.distance))
  }

  /** The solver as written: ties are stored with their closing room. */
  function Solve(g: Graph, prefix: seq<Node>, getAll: bool): Result<Answer, SolveError> {
    SolveWith(g, prefix, getAll, false)
  }

  /** The corrected solver: every kept tour is stored without its closing room. */
  function SolveTrimmed(g: Graph, prefix: seq<Node>, getAll: bool): Result<Answer, SolveError> {
    SolveWith(g, prefix, getAll, true)
  }
}
